=== FILE: README.md ===
# 5W1H interviewer and 8D report collector, in Dafny

This project models two components of a quality-problem analysis toolkit:

- **`FiveWInterviewer`** (scripts/five_w_interviewer.py) is a guided interview.
  - A fixed catalog holds three phases: `initial` (5 questions), `root_cause` (3) and `prevention` (1).
  - `start_interview` records the user's problem statement under the key `initial_problem` and asks the first question.
  - Each `process_response` stores an answer and appends the question id to the asked list.
  - A phase counts as complete once at least 80% of its distinct question ids have been asked. The interview then moves to the next phase.
  - When no phase remains and no question is left, the interview ends with a summary.
  - `get_remaining_questions` and `export_conversation` read the same state.
- **`EightDReportGenerator`** (scripts/eight_d_report_generator.py) collects an 8D report.
  - A fixed template covers nine stages, D0–D8, each with the fields its record type requires.
  - `collect_information` stores one stage record, all or nothing.
  - `check_completion_status` lists D0–D7 as done or pending and adds a completion ratio.
  - `generate_five_whys` turns a problem statement into five "why" questions.

Both components are modelled as pure functions over immutable values. The interviewer's mutable fields become a `Session` value, and each call returns the new session together with the dictionary the source returns. The clock becomes an `Instant` parameter that carries both renderings the source uses: `isoformat()` and the `strftime` display form.

Files:

| file | module | contents |
|---|---|---|
| wrappers.dfy | `Wrappers` | `Option` |
| strings.dfy | `Strings` | substring test (`in` on `str`), decimal rendering of naturals (f-string `{n}`) |
| seqs.dfy | `Seqs` | duplicate-freedom, first-occurrence de-duplication (dict key order), counting members of a set |
| catalog.dfy | `QuestionCatalog` | the question catalog, phase lookup, `_get_next_phase` |
| responses.dfy | `Responses` | the `responses` dict as an insertion-ordered association list |
| interviewer.dfy | `FiveWInterviewer` | session, start, next question, response processing, completion check, summary, export record |
| interviewer_props.dfy | `InterviewerProperties` | session invariant, multi-call properties, the end-to-end run |
| eight_d.dfy | `EightDReport` | template, record fields, collection, completion report, 5-Why template |
| eight_d_props.dfy | `EightDProperties` | completion-report counting, collection algebra, 5-Why properties |

Behaviour the model follows as the code is written:

- **The summary has one entry per response.** This includes `initial_problem`. After answering in catalog order (four `initial` answers, three `root_cause` answers and `how_prevent`), the summary therefore lists nine stages.
- **Key findings include the problem statement.** The filter looks at every response, so `initial_problem` is a key finding when it contains `原因` or `导致`.
- **Question ids are not checked.** Any id is stored and appended to the asked list. An id outside the current phase, or one asked before, adds nothing to completion. An id outside the catalog can still be answered.
- **Re-answering keeps the key's position.** It overwrites the stored value in the dict.
- **The completion ratio can read `9/8`.** Its numerator is the number of stored stages, D8 included, but its denominator is 8 and only D0–D7 are listed.
- **An unknown phase goes to `initial`.** `_get_next_phase` gives `initial` for a phase name outside the order, because the index is -1.

## Model

| member | source | states |
|---|---|---|
| QuestionCatalog.Definition | scripts/five_w_interviewer.py:45-180 | Each catalog id has one full question record (text, category, purpose, follow-ups, answer type, validation), and the record carries that id. |
| QuestionCatalog.QuestionsMatchIds | scripts/five_w_interviewer.py:45-180 | The question records line up one-to-one, in order, with the catalog's ids. |
| QuestionCatalog.FindPhase | scripts/five_w_interviewer.py:45-180 | A phase lookup succeeds exactly for the three phase names. The phase found carries that name, and all its ids are catalog ids. |
| QuestionCatalog.CatalogIdsDistinct | scripts/five_w_interviewer.py:45-180 | No question id appears twice in the catalog. |
| QuestionCatalog.PhaseIdsDistinct | scripts/five_w_interviewer.py:45-180 | Within every phase, the ids are distinct. |
| QuestionCatalog.PhasesDisjoint | scripts/five_w_interviewer.py:45-180 | No id belongs to two phases. |
| QuestionCatalog.PhaseSizes | scripts/five_w_interviewer.py:45-180 | The phases hold 5, 3 and 1 questions. |
| QuestionCatalog.PhaseNonEmpty | scripts/five_w_interviewer.py:45-180 | Every phase has a first question. |
| QuestionCatalog.TemplatesFollowPhaseOrder | scripts/five_w_interviewer.py:324 | The template dictionary lists the phases in the same order `_get_next_phase` walks. That order ranks them 0, 1 and 2. |
| QuestionCatalog.IndexOf | scripts/five_w_interviewer.py:325 | `list.index` returns the first position holding the element. |
| QuestionCatalog.NextPhase | scripts/five_w_interviewer.py:322-330 | The successor phase ranks one higher than the current phase. There is none exactly after `prevention`. A name outside the order yields `initial`. |
| Responses.Keys | scripts/five_w_interviewer.py:336 | `list(responses.keys())` has one key per entry, in entry order. |
| Responses.Get | scripts/five_w_interviewer.py:364 | A lookup finds a value exactly when the key is present, and the value found is stored under that key. |
| Responses.AssignKeys | scripts/five_w_interviewer.py:267 | A dict assignment keeps the key order when the key exists. Otherwise it appends the key at the end. |
| Responses.AssignGet | scripts/five_w_interviewer.py:267 | After a dict assignment, a lookup of that key gives the new value, and every other key's lookup is unchanged. |
| Responses.Put | scripts/five_w_interviewer.py:267 | `responses[k] = v` follows the dict semantics above: key order, the new value, and every other entry untouched. |
| FiveWInterviewer.Start | scripts/five_w_interviewer.py:182-215 | Starting resets the session to phase `initial` with nothing asked. Its only response is the problem statement under `initial_problem` with confidence `initial`. The first question offered is the full catalog record of `what_problem`, and the progress text is `初始问题已记录，开始5W1H追问`. |
| FiveWInterviewer.NewInterviewer | scripts/five_w_interviewer.py:38-43 | A new interviewer is in phase `initial` with nothing asked and no responses, and its next question would be `what_problem`. |
| FiveWInterviewer.Record | scripts/five_w_interviewer.py:256-268 | The first half of `process_response` keeps the phase, appends the id, stores the new response under it and leaves every other response as it was. |
| FiveWInterviewer.CurrentIds | scripts/five_w_interviewer.py:219-223 | A known phase yields exactly its catalog ids, in catalog order. An unknown phase yields none, so `get_next_question` returns `None` and `get_remaining_questions` returns `[]` for it. |
| FiveWInterviewer.FirstUnasked | scripts/five_w_interviewer.py:225-237 | The loop returns an id exactly when some phase id is unasked. The id returned is unasked, and every id before it has been asked. |
| FiveWInterviewer.NextQuestionId | scripts/five_w_interviewer.py:217-237 | The next question always belongs to the current phase. |
| FiveWInterviewer.NextQuestion | scripts/five_w_interviewer.py:217-237 | A question record is returned exactly when there is an unasked id. It is that id's full catalog record, with category, purpose, follow-ups, answer type and validation. |
| FiveWInterviewer.CheckPhaseCompletion | scripts/five_w_interviewer.py:300-320 | An unknown phase gives only "not complete". Otherwise `answered_count` is the number of the phase's distinct ids that have been asked, and `total_count` is the phase size. "Complete" holds exactly when at least 80% of the phase has been asked, which works out to 4 of 5, 3 of 3 and 1 of 1. The summary reads `<description> - <answered>/<total> 问题已完成`. |
| FiveWInterviewer.ProcessResponse | scripts/five_w_interviewer.py:239-298 | The id is appended and the answer stored under it, and no other response changes. `phase_complete` comes exactly when the phase reaches 80% and has a successor. The session then moves to the successor and offers its next question; `phase_summary` is the completion summary of the updated session, and the progress text names the new phase. `question_answered` comes exactly when the phase did not hand over and an unasked question remains, which it offers, with progress `问题<id>已回答，准备下一个问题`. Otherwise the result is `interview_complete`, carrying the summary, with progress `所有阶段的问题都已完成`. |
| FiveWInterviewer.Status | scripts/five_w_interviewer.py:278-295 | The `status` field reads `phase_complete`, `question_answered` or `interview_complete` exactly for the matching kind of result. |
| FiveWInterviewer.UnaskedTexts | scripts/five_w_interviewer.py:393-395 | The remaining list holds the text of every unasked phase question, and only those; `UnaskedTextsFilter` and `UnaskedTextsOne` fix the catalog order and one entry per unasked id. |
| FiveWInterviewer.RemainingQuestions | scripts/five_w_interviewer.py:388-397 | An unknown phase has no remaining questions. Otherwise the list holds exactly the texts of the phase's unasked questions, and it is the filtered catalog list, so `UnaskedTextsFilter` and `UnaskedTextsOne` give it catalog order and one entry per unasked id. |
| InterviewerProperties.UnaskedTextsFilter | scripts/five_w_interviewer.py:393-395 | The remaining list of ids placed end to end is their remaining lists end to end, so it follows catalog order. |
| InterviewerProperties.UnaskedTextsOne | scripts/five_w_interviewer.py:394-395 | One id contributes its question text exactly when it has not been asked, and only once. |
| FiveWInterviewer.KeyFindings | scripts/five_w_interviewer.py:350-356 | Every answer containing `原因` or `导致` is a key finding, and every key finding contains one of them; `KeyFindingsFilter` fixes response order and one entry per marked response. |
| Strings.Contains | scripts/five_w_interviewer.py:353 | Python's substring test `t in s`, which `IsKeyFinding` applies with `原因` and `导致`, holds exactly when `t` occurs in `s` at some position. |
| InterviewerProperties.KeyFindingsFilter | scripts/five_w_interviewer.py:351-354 | The key findings of responses placed end to end are their findings end to end, so they follow response order. One response contributes its answer exactly when the answer is marked. |
| InterviewerProperties.ProblemStatementFindingFirst | scripts/five_w_interviewer.py:351-356 | A marked problem statement is the first key finding of the summary. |
| FiveWInterviewer.Analyses | scripts/five_w_interviewer.py:342-348 | There is one analysis per response, in response order, with that response's answer, confidence and evidence. |
| FiveWInterviewer.Summary | scripts/five_w_interviewer.py:332-358 | The summary carries the given completion time. It has one stage and one analysis per response, in response order, both keyed by the response's id. Its analyses are exactly the per-response records of answer, confidence and evidence. Its key findings are exactly the in-order marked answers, whose order and multiplicity `KeyFindingsFilter` fixes. There are no recommendations. |
| FiveWInterviewer.History | scripts/five_w_interviewer.py:371-376 | There is one history entry per response, in response order, pairing the key with the response. |
| FiveWInterviewer.Export | scripts/five_w_interviewer.py:360-386 | The export starts at the problem statement's timestamp, completes at the current clock reading, and records the current phase. Its history has one entry per response, in order, pairing each key with its stored response. Its summary is the interview summary at the current clock reading. |
| InterviewerProperties.StartIsValid | scripts/five_w_interviewer.py:182-215 | A started session satisfies the session invariant. |
| InterviewerProperties.ProcessResponsePreservesValid | scripts/five_w_interviewer.py:239-298 | Processing any response, for any id, preserves the session invariant. The invariant has three parts: the phase is known; the keys are `initial_problem` then the asked ids in first-asked order; each response is keyed by its own id. |
| InterviewerProperties.KeyOrderStep | scripts/five_w_interviewer.py:267-268 | Storing an answer and appending its id keeps the keys equal to the de-duplicated asked list. |
| InterviewerProperties.WellKeyedStep | scripts/five_w_interviewer.py:257-267 | Storing a response built with its own id keeps every entry keyed by its id. |
| InterviewerProperties.PhaseNeverMovesBackward | scripts/five_w_interviewer.py:273-276 | From any session in one of the three phases, including one answered before `start_interview`, the phase stays one of the three, and it only stays put or moves to the next. |
| InterviewerProperties.ResponseKeysAreAskedIds | scripts/five_w_interviewer.py:206 | In a valid session the keys are distinct, `initial_problem` comes first, and the keys are exactly `initial_problem` plus the asked ids. |
| InterviewerProperties.RepeatedOrForeignIdsDoNotCount | scripts/five_w_interviewer.py:306-309 | Answering an id again, or answering an id outside the phase, leaves phase completion unchanged. |
| InterviewerProperties.AllAskedIsComplete | scripts/five_w_interviewer.py:309-311 | A phase with every question asked is complete. |
| InterviewerProperties.InterviewCompleteOnlyAtPrevention | scripts/five_w_interviewer.py:271-298 | From any session in one of the three phases, started or not, `interview_complete` comes only from `prevention`, with every question of it asked. |
| InterviewerProperties.NextQuestionHeadsRemaining | scripts/five_w_interviewer.py:388-397 | The next unasked id is missing exactly when the remaining list is empty. Otherwise its text heads that list. |
| InterviewerProperties.NextQuestionMatchesRemaining | scripts/five_w_interviewer.py:217-237 | `get_next_question` and `get_remaining_questions` agree: the next question is the first remaining one, and there is none exactly when none remain. |
| InterviewerProperties.GetAtIndex | scripts/five_w_interviewer.py:343 | With distinct keys, iterating `items()` yields what a lookup of each key returns. |
| InterviewerProperties.SummaryShape | scripts/five_w_interviewer.py:332-358 | The summary lists the response keys in insertion order, starting with `initial_problem`. It has one analysis per key, holding that key's stored answer, confidence and evidence. Its key findings are the in-order filter of the responses, so they are exactly the marked answers. It has no recommendations. |
| InterviewerProperties.KeyFindingFromEntry | scripts/five_w_interviewer.py:352-354 | Every key finding is the answer of some stored response. |
| InterviewerProperties.ExportHistoryIsStored | scripts/five_w_interviewer.py:360-376 | A valid session can always be exported, and each history entry is the response stored under its id. |
| InterviewerProperties.ExportTwiceDiffersOnlyInTime | scripts/five_w_interviewer.py:360-381 | Two exports of the same session differ only in their completion timestamps. |
| InterviewerProperties.FirstUnaskedAt | scripts/five_w_interviewer.py:225-227 | If position `m` holds the first unasked id, the loop returns that id. |
| InterviewerProperties.CompletionAfterPrefix | scripts/five_w_interviewer.py:306-311 | After the phase's first `n` questions, plus ids of other phases, the phase is complete exactly when `5n >= 4 * total`. |
| InterviewerProperties.NextAfterPrefix | scripts/five_w_interviewer.py:225-237 | After the phase's first `n` questions, the next id is the `n`-th, or none once all are asked. |
| InterviewerProperties.AnswerInCatalogOrder | scripts/five_w_interviewer.py:239-298 | Answering a phase in catalog order hands over at the 80% mark when a successor exists. Below that mark, the next catalog question is asked. The last answer of the last phase ends the interview. |
| InterviewerProperties.FreshInOrder | scripts/five_w_interviewer.py:267 | In an in-order run, the next id has no response stored yet. |
| InterviewerProperties.ObserveNextQuestion | scripts/five_w_interviewer.py:285-291 | Below the 80% mark, an in-order answer yields `question_answered` with the next catalog id, and the phase does not change. |
| InterviewerProperties.HandOverState | scripts/five_w_interviewer.py:273-276 | Reaching the 80% mark of a phase that has a successor moves the session to that successor. |
| InterviewerProperties.FreshPhaseStartsAtFirst | scripts/five_w_interviewer.py:225-227 | On entering a phase none of whose ids was asked, the next question is the phase's first. |
| InterviewerProperties.ObserveHandOver | scripts/five_w_interviewer.py:273-282 | A hand-over reports `phase_complete`, the new phase and that phase's first question. |
| InterviewerProperties.FinishState | scripts/five_w_interviewer.py:293-298 | The last answer of `prevention` ends the interview without changing the phase. |
| InterviewerProperties.ObserveFinish | scripts/five_w_interviewer.py:293-298 | The end of the interview reports one summary entry per response: the problem statement plus every answer. |
| InterviewerProperties.InitialStep | scripts/five_w_interviewer.py:239-298 | The run's first four answers give `question_answered` three times, then `phase_complete` into `root_cause` with `why_immediate`. |
| InterviewerProperties.RootCauseStep | scripts/five_w_interviewer.py:239-298 | The three `root_cause` answers give `question_answered` twice, then `phase_complete` into `prevention` with `how_prevent`. |
| InterviewerProperties.PreventionStep | scripts/five_w_interviewer.py:239-298 | Answering `how_prevent` gives `interview_complete` with nine summary entries. |
| InterviewerProperties.TraceFrom | scripts/five_w_interviewer.py:239-298 | From each point of the in-order run, the remaining answers produce the remaining expected results. |
| InterviewerProperties.EndToEndRun | scripts/five_w_interviewer.py:182-298 | An interview answered in catalog order opens with `what_problem`. Four `initial` answers hand over to `root_cause` at `why_immediate`, and three `root_cause` answers hand over to `prevention` at `how_prevent`. Answering that ends the interview. |
| EightDReport.Template | scripts/eight_d_report_generator.py:103-206 | The template has an entry exactly for D0–D8, each with its title, description and required fields. |
| EightDReport.RecordFields | scripts/eight_d_report_generator.py:14-94 | The record types `D0Data` … `D8Data` exist exactly for D0–D8, each with its declared fields. |
| EightDReport.TemplateMatchesRecords | scripts/eight_d_report_generator.py:103-206 | Each stage's required fields are exactly its record type's fields, in the same order. |
| EightDReport.RequiredFields | scripts/eight_d_report_generator.py:223 | A known stage's required fields are its record type's fields. |
| EightDReport.MissingFields | scripts/eight_d_report_generator.py:226 | The missing list holds exactly the required fields absent from the input. |
| EightDReport.Construct | scripts/eight_d_report_generator.py:232-249 | `DxData(**user_input)` succeeds exactly when the input's keys are the record's fields, and the record it builds holds the input. |
| EightDReport.CollectInformation | scripts/eight_d_report_generator.py:208-255 | Collection succeeds exactly for a known stage whose input keys equal its required fields. An unknown stage, a missing field or an extra key returns `False` and leaves the data unchanged. Success stores the stage's record, replacing any earlier one, and leaves every other stage as it was. |
| EightDReport.NewReportData | scripts/eight_d_report_generator.py:99-101 | A new generator has no stage data. |
| EightDReport.StageKey | scripts/eight_d_report_generator.py:323 | The key `f"D{i}"` of each stage number below nine is that stage's name. |
| Strings.NatToString | scripts/eight_d_report_generator.py:329 | The decimal rendering of `{n}` is a non-empty digit string denoting `n`, with no leading zero except for `0` itself. |
| EightDReport.StageEntries | scripts/eight_d_report_generator.py:322-327 | The `i`-th listed entry is `D{i}`, marked done exactly when that stage is stored. |
| EightDReport.Mark | scripts/eight_d_report_generator.py:324-327 | A stage is marked `已完成` exactly when it is collected, and `待完成` exactly when it is not. |
| EightDReport.CheckCompletionStatus | scripts/eight_d_report_generator.py:317-330 | The report has eight stage entries plus the ratio. Each entry is done exactly when its stage is stored. The ratio reads `{stored}/8`. |
| EightDReport.GenerateFiveWhys | scripts/eight_d_report_generator.py:257-276 | There are five whys: the first quotes the problem, and the last four are fixed. |
| EightDProperties.StageKeyIsStage | scripts/eight_d_report_generator.py:323 | The key `f"D{i}"` is the name of stage `i`. |
| EightDProperties.StageKeyInjective | scripts/eight_d_report_generator.py:323 | Different stage numbers give different keys. |
| EightDProperties.CompletionReportShape | scripts/eight_d_report_generator.py:317-330 | The report lists D0–D7 in order, each done or pending exactly by presence, then the ratio. `D8` never appears as a key. |
| EightDProperties.DoneCountIsCountIn | scripts/eight_d_report_generator.py:322-327 | The done entries count the listed stages that are stored. |
| EightDProperties.ListedDoneCount | scripts/eight_d_report_generator.py:322-329 | The number of done entries is the number of stored stages among D0–D7. |
| EightDProperties.CollectKeepsStageKeys | scripts/eight_d_report_generator.py:232-251 | Collecting only ever stores stage names as keys. |
| EightDProperties.RatioCountsD8 | scripts/eight_d_report_generator.py:317-330 | The ratio's numerator equals the done entries plus one when D8 is stored. |
| EightDProperties.RatioReadsNineOfEight | scripts/eight_d_report_generator.py:320-329 | With all nine stages stored, the ratio reads `9/8` while eight entries are done. |
| EightDProperties.CollectIdempotent | scripts/eight_d_report_generator.py:208-255 | Collecting the same input twice equals collecting it once. |
| EightDProperties.CollectOverwrites | scripts/eight_d_report_generator.py:232-251 | A later successful collection of a stage replaces what an earlier one stored. |
| EightDProperties.CollectIsUpdate | scripts/eight_d_report_generator.py:208-255 | Whether collection succeeds does not depend on the data already stored. Success is one map update. |
| EightDProperties.CollectCommutes | scripts/eight_d_report_generator.py:232-251 | Collections for two different stages give the same data in either order. |
| EightDProperties.ExtraKeyRejected | scripts/eight_d_report_generator.py:232-255 | An input with every required field plus an unknown key is rejected by the record type. `False` is returned and the data stays as it was. |
| EightDProperties.FiveWhysQuoteProblem | scripts/eight_d_report_generator.py:269-270 | Removing the fixed prefix and suffix from the first why gives back the problem exactly. |
| EightDProperties.FiveWhysInjective | scripts/eight_d_report_generator.py:269-275 | Two problems give the same five whys exactly when they are equal, and the last four whys never depend on the problem. |
| EightDProperties.FiveWhysAreWhys | scripts/eight_d_report_generator.py:269-275 | Every entry begins with `为什么`. |

## Left out

- Everything in scripts/multimedia_processor.py is outside this model.
- File output is left out: the JSON writes of `export_conversation` and `generate_report`, and the directory creation. Only the in-memory export record is modelled.
- `export_to_word` is left out. It is document formatting through an optional third-party library.
- `generate_fishbone_diagram` is left out. It returns a constant dictionary and takes no part in the collector's state.
- `generate_report` is modelled only through `check_completion_status`. The rest is a timestamped JSON dump of the stored records.
- `main` in both files is left out. It is a demonstration script.
- `conversation_history` is left out. It is only ever reset to an empty list and never read.
- Clock readings (`datetime.now()`) become `Instant` parameters.
- FiveWInterviewer.Export: requires an `initial_problem` entry. Without one, the source fails when it reads `.timestamp` from the empty default dict. A started interview always has the entry, as `ExportHistoryIsStored` shows.
- EightDReport.CollectInformation: the `print` in the exception handler is left out. Only its `False` result is modelled.
- EightDReport.Construct: field values are untyped (`Value`), because the dataclasses do not check types at run time. A wrong-typed value is stored as given, as in the source.
- FiveWInterviewer.CheckPhaseCompletion: the floating-point comparison `answered >= total * 0.8` is stated as `5 * answered >= 4 * total`. This is exact for the catalog's totals 5, 3 and 1.
- FiveWInterviewer.ProcessResponse: `answer_details or []` and `supporting_evidence or []` are modelled by passing the list directly. `None` and an empty list have the same effect there.
- InterviewerProperties.EndToEndRun: shows the in-order run with the same answer text and clock reading for every call. The run's control flow does not depend on either.

=== FILE: catalog.dfy ===
/**
 The fixed 5W1H question catalog (`_load_question_templates`) and the fixed
 phase order used by `_get_next_phase` in scripts/five_w_interviewer.py.
 */
module QuestionCatalog {

  import opened Wrappers
  import opened Seqs

  /** One catalog question: the record the interviewer hands out as `QuestionContext`. */
  datatype Question = Question(
    id: string,
    text: string,
    category: string,
    purpose: string,
    followUp: seq<string>,
    answerType: string,
    validation: seq<string>)

  /**
   A catalog phase: its name (the dictionary key), description and the ids of
   its questions in catalog order; each id's full record is `Definition(id)`.
   */
  datatype Phase = Phase(name: string, description: string, questionIds: seq<string>)

  const Initial: string := "initial"
  const RootCause: string := "root_cause"
  const Prevention: string := "prevention"

  /** The list `_get_next_phase` walks: `["initial", "root_cause", "prevention"]`. */
  const PhaseOrder: seq<string> := [Initial, RootCause, Prevention]

  const InitialIds: seq<string> := ["what_problem", "when_problem", "where_problem", "who_involved", "how_severe"]
  const RootCauseIds: seq<string> := ["why_immediate", "why_systematic", "why_process"]
  const PreventionIds: seq<string> := ["how_prevent"]

  /** Every id the catalog defines. */
  const CatalogIds: seq<string> := InitialIds + RootCauseIds + PreventionIds

  /** The template dictionary, in its key order. */
  function Templates(): seq<Phase>
  {
    [Phase(Initial, "初始问题定义阶段", InitialIds),
     Phase(RootCause, "根本原因挖掘阶段", RootCauseIds),
     Phase(Prevention, "预防措施探讨阶段", PreventionIds)]
  }

  /** The question records of the catalog, in catalog order. */
  const Questions: seq<Question> := [
    Question("what_problem", "请详细描述您遇到的具体问题是什么？", "问题定义", "明确问题的具体表现",
      ["这个问题是什么时候第一次出现的？", "问题的具体表现有哪些？", "受影响的产品或系统有哪些？"],
      "详细描述", ["是否具体", "是否可测量", "是否可验证"]),
    Question("when_problem", "这个问题是什么时候发生的？", "时间维度", "确定问题发生的时间范围",
      ["是突然发生的还是逐渐出现的？", "在什么情况下最容易发生？", "有周期性或规律性吗？"],
      "时间描述", ["时间是否准确", "是否有具体时间点"]),
    Question("where_problem", "这个问题在哪些地方或哪些环节出现？", "位置维度", "确定问题的发生位置",
      ["是所有地点都有还是特定地点？", "在生产流程的哪个环节？", "涉及哪些人员或设备？"],
      "位置描述", ["位置是否具体", "是否可定位"]),
    Question("who_involved", "涉及哪些人员、供应商或合作伙伴？", "人员维度", "确定问题的相关人员",
      ["哪些人员直接参与了相关活动？", "是否有外部供应商参与？", "责任分工是怎样的？"],
      "人员列表", ["是否完整", "是否准确"]),
    Question("how_severe", "问题的严重程度如何？影响范围有多大？", "影响评估", "评估问题的严重性和影响",
      ["对产品质量的影响程度？", "对客户满意度的影响？", "对成本和时间的影响？"],
      "影响评估", ["评估是否客观", "是否有数据支持"]),
    Question("why_immediate", "为什么会出现这个问题？请分析直接原因。", "直接原因", "识别问题的直接原因",
      ["这个直接原因是由什么导致的？", "是否有关键的触发条件？", "涉及哪些具体的环节或部件？"],
      "原因分析", ["原因是否具体", "是否可验证"]),
    Question("why_systematic", "从系统角度看，为什么预防措施没有发挥作用？", "系统原因", "分析系统层面的问题",
      ["现有的控制措施为什么失效？", "系统设计是否存在缺陷？", "监控机制是否有效？"],
      "系统分析", ["分析是否深入", "是否触及根本"]),
    Question("why_process", "在流程和程序方面，哪些环节可能存在问题？", "流程原因", "分析流程和程序问题",
      ["作业标准是否清晰完整？", "流程设计是否合理？", "执行过程是否有偏差？"],
      "流程分析", ["分析是否全面", "是否有改进空间"]),
    Question("how_prevent", "如何防止这类问题再次发生？", "预防措施", "制定有效的预防措施",
      ["需要修改哪些程序或标准？", "需要增加哪些检查点？", "需要哪些培训和能力提升？"],
      "措施建议", ["措施是否可行", "是否有针对性"])
  ]

  /** The records line up with the ids: the `i`-th record carries the `i`-th id. */
  lemma QuestionsMatchIds()
    ensures |Questions| == |CatalogIds|
    ensures forall i :: 0 <= i < |CatalogIds| ==> Questions[i].id == CatalogIds[i]
  {
  }

  /** The full record of a catalog question. */
  function Definition(id: string): (q: Question)
    requires id in CatalogIds
    ensures q.id == id
  {
    QuestionsMatchIds();
    Questions[IndexOf(CatalogIds, id)]
  }

  /** Dictionary lookup `question_templates[name]`; `None` when the key is absent. */
  function FindPhase(name: string): (r: Option<Phase>)
    ensures r.Some? <==> name in PhaseOrder
    ensures r.Some? ==> r.value.name == name
    ensures r.Some? ==> forall id :: id in r.value.questionIds ==> id in CatalogIds
  {
    if name == Initial then Some(Templates()[0])
    else if name == RootCause then Some(Templates()[1])
    else if name == Prevention then Some(Templates()[2])
    else None
  }

  /** Position of a phase in the fixed order; an independent reference for "earlier/later". */
  function Rank(name: string): nat
  {
    if name == Initial then 0
    else if name == RootCause then 1
    else if name == Prevention then 2
    else 3
  }

  /** Python's `list.index` on a list known to hold `x`. */
  function IndexOf(xs: seq<string>, x: string): (i: nat)
    requires x in xs
    ensures i < |xs| && xs[i] == x
    ensures forall j :: 0 <= j < i ==> xs[j] != x
  {
    if xs[0] == x then 0 else 1 + IndexOf(xs[1..], x)
  }

  /**
   `_get_next_phase`: the successor in the fixed order. A name outside the
   order has index -1, so its "successor" is the first phase.
   */
  function NextPhase(current: string): (r: Option<string>)
    ensures current in PhaseOrder && r.Some? ==> r.value in PhaseOrder && Rank(r.value) == Rank(current) + 1
    ensures r.None? <==> current == Prevention
    ensures current !in PhaseOrder ==> r == Some(Initial)
  {
    var i: int := if current in PhaseOrder then IndexOf(PhaseOrder, current) else -1;
    if i < |PhaseOrder| - 1 then Some(PhaseOrder[i + 1]) else None
  }

  /** The phases are listed in the dictionary in the same order `_get_next_phase` walks. */
  lemma TemplatesFollowPhaseOrder()
    ensures |Templates()| == |PhaseOrder|
    ensures forall i :: 0 <= i < |PhaseOrder| ==> Templates()[i].name == PhaseOrder[i]
    ensures forall i :: 0 <= i < |PhaseOrder| ==> Rank(PhaseOrder[i]) == i
  {
  }

  /** Question ids are unique across the whole catalog, so within each phase and between phases. */
  lemma CatalogIdsDistinct()
    ensures NoDup(CatalogIds)
  {
  }

  /** Every phase's ids are distinct, so "distinct ids answered" never exceeds the phase size. */
  lemma PhaseIdsDistinct(name: string)
    requires name in PhaseOrder
    ensures NoDup(FindPhase(name).value.questionIds)
  {
  }

  /** The phase sizes: 5, 3 and 1 questions. */
  lemma PhaseSizes()
    ensures |FindPhase(Initial).value.questionIds| == 5
    ensures |FindPhase(RootCause).value.questionIds| == 3
    ensures |FindPhase(Prevention).value.questionIds| == 1
  {
  }

  /** Every phase has at least one question, so entering a phase always has a first question to ask. */
  lemma PhaseNonEmpty(name: string)
    requires name in PhaseOrder
    ensures |FindPhase(name).value.questionIds| >= 1
  {
  }

  /** The first question id of a phase. */
  function FirstId(name: string): string
    requires name in PhaseOrder
  {
    PhaseNonEmpty(name);
    FindPhase(name).value.questionIds[0]
  }

  /** No id belongs to two phases. */
  lemma PhasesDisjoint()
    ensures forall x :: x in InitialIds ==> x !in RootCauseIds && x !in PreventionIds
    ensures forall x :: x in RootCauseIds ==> x !in PreventionIds
  {
  }
}

=== FILE: eight_d.dfy ===
/**
 The 8D report data collector: a fixed table of nine stages D0–D8, each with
 the list of fields its record must carry; an all-or-nothing `collect_information`
 that stores one stage record; the D0–D7 completion report; and the 5-Why template.
 */
module EightDReport {
  import opened Wrappers
  import opened Seqs
  import opened Strings

  /** The stages of the report, in order. */
  const Stages: seq<string> := ["D0", "D1", "D2", "D3", "D4", "D5", "D6", "D7", "D8"]

  /** `total_phases` of the completion report: only D0–D7 are counted. */
  const TotalPhases: nat := 8

  const DoneMark := "已完成"
  const PendingMark := "待完成"
  const RatioKey := "完成度"

  /**
   A field value as the user supplies it. The record types do no type checking,
   so any value is accepted for any field.
   */
  datatype Value =
    | Text(text: string)
    | Number(number: int)
    | Flag(flag: bool)
    | Items(items: seq<Value>)
    | Table(entries: seq<(string, Value)>)

  /** `user_input`: field name to value. */
  type Input = map<string, Value>

  /** An instance of one of the stage record types `D0Data` … `D8Data`. */
  datatype StageRecord = StageRecord(stage: string, fields: map<string, Value>)

  /** `current_data`: the records collected so far, by stage. */
  type ReportData = map<string, StageRecord>

  /** One entry of the report template. */
  datatype StageTemplate = StageTemplate(title: string, description: string, requiredFields: seq<string>)

  /** `_load_template`: the title, description and required fields of each stage. */
  function Template(stage: string): (t: Option<StageTemplate>)
    ensures t.Some? <==> stage in Stages
  {
    if stage == "D0" then
      Some(StageTemplate("D0：问题发现和初步响应", "识别和定义问题，建立初步响应",
        ["problem_description", "discovery_date", "discovery_person",
         "affected_products", "initial_severity", "initial_response"]))
    else if stage == "D1" then
      Some(StageTemplate("D1：组建跨功能团队", "组建具备解决问题技能的跨功能团队",
        ["team_leader", "team_members", "team_roles", "communication_plan"]))
    else if stage == "D2" then
      Some(StageTemplate("D2：问题定义和描述", "明确问题的详细定义和范围",
        ["problem_statement", "problem_scope", "affected_customers", "customer_impact",
         "safety_impact", "legal_impact", "financial_impact"]))
    else if stage == "D3" then
      Some(StageTemplate("D3：临时遏制措施", "实施临时措施以遏制问题影响",
        ["containment_actions", "implementation_date", "responsible_person",
         "effectiveness_verification", "customer_notification"]))
    else if stage == "D4" then
      Some(StageTemplate("D4：根因分析", "使用分析工具识别问题的根本原因",
        ["root_cause_analysis", "fishbone_diagram", "five_whys", "data_analysis",
         "potential_causes", "verified_root_cause"]))
    else if stage == "D5" then
      Some(StageTemplate("D5：永久纠正措施", "制定和选择永久性纠正措施",
        ["corrective_actions", "implementation_plan", "responsible_person",
         "target_date", "resource_requirements"]))
    else if stage == "D6" then
      Some(StageTemplate("D6：实施和验证纠正措施", "实施纠正措施并验证其有效性",
        ["implementation_status", "verification_results", "effectiveness_assessment", "side_effects"]))
    else if stage == "D7" then
      Some(StageTemplate("D7：预防再发生", "修改系统、程序、流程以预防问题再发生",
        ["prevention_measures", "process_improvements", "training_requirements",
         "system_updates", "documentation_changes"]))
    else if stage == "D8" then
      Some(StageTemplate("D8：团队总结和认可", "总结经验教训，认可团队贡献",
        ["lessons_learned", "team_recognition", "process_improvements", "knowledge_sharing"]))
    else None
  }

  /** The fields of the record type a stage's data is built with (`D0Data` … `D8Data`), in declaration order. */
  function RecordFields(stage: string): (fs: Option<seq<string>>)
    ensures fs.Some? <==> stage in Stages
  {
    if stage == "D0" then
      Some(["problem_description", "discovery_date", "discovery_person",
            "affected_products", "initial_severity", "initial_response"])
    else if stage == "D1" then
      Some(["team_leader", "team_members", "team_roles", "communication_plan"])
    else if stage == "D2" then
      Some(["problem_statement", "problem_scope", "affected_customers", "customer_impact",
            "safety_impact", "legal_impact", "financial_impact"])
    else if stage == "D3" then
      Some(["containment_actions", "implementation_date", "responsible_person",
            "effectiveness_verification", "customer_notification"])
    else if stage == "D4" then
      Some(["root_cause_analysis", "fishbone_diagram", "five_whys", "data_analysis",
            "potential_causes", "verified_root_cause"])
    else if stage == "D5" then
      Some(["corrective_actions", "implementation_plan", "responsible_person",
            "target_date", "resource_requirements"])
    else if stage == "D6" then
      Some(["implementation_status", "verification_results", "effectiveness_assessment", "side_effects"])
    else if stage == "D7" then
      Some(["prevention_measures", "process_improvements", "training_requirements",
            "system_updates", "documentation_changes"])
    else if stage == "D8" then
      Some(["lessons_learned", "team_recognition", "process_improvements", "knowledge_sharing"])
    else None
  }

  /** Each stage's required-field list is exactly the field list of its record type. */
  lemma TemplateMatchesRecords(stage: string)
    requires stage in Stages
    ensures Template(stage).value.requiredFields == RecordFields(stage).value
  {
  }

  /** The required fields of a known stage. */
  function RequiredFields(stage: string): (fs: seq<string>)
    requires stage in Stages
    ensures fs == RecordFields(stage).value
  {
    TemplateMatchesRecords(stage);
    Template(stage).value.requiredFields
  }

  /** `missing_fields`: the required fields absent from the input, in template order. */
  function MissingFields(required: seq<string>, input: Input): (m: seq<string>)
    ensures |m| <= |required|
    ensures forall f :: f in m <==> f in required && f !in input
  {
    if |required| == 0 then []
    else
      var rest := MissingFields(required[1..], input);
      assert forall f :: f in required <==> f == required[0] || f in required[1..];
      if required[0] !in input then [required[0]] + rest else rest
  }

  /** Why a record could not be built from the input. */
  datatype ConstructError = UnexpectedField | MissingArgument

  /**
   Building a record with `DataXX(**user_input)`: every input key must name a
   field of the record type and every field must be given, otherwise the call raises.
   */
  function Construct(stage: string, fields: seq<string>, input: Input): (r: Result)
    ensures r.Built? <==> input.Keys == ToSet(fields)
    ensures r.Built? ==> r.record == StageRecord(stage, input)
  {
    if exists k :: k in input && k !in fields then Failed(UnexpectedField)
    else if exists f :: f in fields && f !in input then Failed(MissingArgument)
    else
      Built(StageRecord(stage, input))
  }

  datatype Result = Built(record: StageRecord) | Failed(error: ConstructError)

  /** What `collect_information` returns, together with the data it leaves behind. */
  datatype Collection = Collection(ok: bool, data: ReportData)

  /**
   `collect_information`: an unknown stage, a missing required field or an input
   the record type rejects all end in `False` with the data untouched; otherwise
   the stage's record is stored, replacing any earlier one.
   */
  function CollectInformation(data: ReportData, phase: string, input: Input): (r: Collection)
    ensures r.ok <==> phase in Stages && input.Keys == ToSet(RequiredFields(phase))
    ensures phase !in Stages ==> !r.ok
    ensures phase in Stages && |MissingFields(RequiredFields(phase), input)| > 0 ==> !r.ok
    ensures !r.ok ==> r.data == data
    ensures r.ok ==> r.data.Keys == data.Keys + {phase}
    ensures r.ok ==> r.data[phase] == StageRecord(phase, input)
    ensures forall other :: other != phase && other in data ==> other in r.data && r.data[other] == data[other]
  {
    if phase !in Stages then Collection(false, data)
    else
      var required := RequiredFields(phase);
      var missing := MissingFields(required, input);
      if |missing| > 0 then
        assert missing[0] in required && missing[0] !in input;
        Collection(false, data)
      else
        match Construct(phase, RecordFields(phase).value, input)
        case Failed(_) => Collection(false, data)
        case Built(record) => Collection(true, data[phase := record])
  }

  /** `__init__`: nothing collected yet. */
  function NewReportData(): (d: ReportData)
    ensures |d| == 0
  {
    map[]
  }

  /** The key `f"D{i}"` of the completion report. */
  function StageKey(i: nat): (k: string)
    ensures i < |Stages| ==> k == Stages[i]
  {
    assert i < 10 ==> NatToString(i) == [Digit(i)];
    "D" + NatToString(i)
  }

  /** The mark a stage entry carries: done exactly when the stage was collected. */
  function Mark(collected: bool): (m: string)
    ensures m == DoneMark <==> collected
    ensures m == PendingMark <==> !collected
  {
    if collected then DoneMark else PendingMark
  }

  /** The first `n` per-stage entries of the completion report. */
  function StageEntries(data: ReportData, n: nat): (es: seq<(string, string)>)
    ensures |es| == n
    ensures forall i :: 0 <= i < n ==> es[i] == (StageKey(i), Mark(StageKey(i) in data))
  {
    if n == 0 then [] else StageEntries(data, n - 1) + [(StageKey(n - 1), Mark(StageKey(n - 1) in data))]
  }

  /** `check_completion_status`: one entry per stage D0–D7, then the ratio. */
  function CheckCompletionStatus(data: ReportData): (r: seq<(string, string)>)
    ensures |r| == TotalPhases + 1
    ensures forall i :: 0 <= i < TotalPhases ==> r[i].0 == StageKey(i)
    ensures forall i :: 0 <= i < TotalPhases ==> (r[i].1 == DoneMark <==> StageKey(i) in data)
    ensures r[TotalPhases] == (RatioKey, NatToString(|data|) + "/" + NatToString(TotalPhases))
  {
    StageEntries(data, TotalPhases) + [(RatioKey, NatToString(|data|) + "/" + NatToString(TotalPhases))]
  }

  /** The four questions that follow the first in the 5-Why template. */
  const FollowUpWhys: seq<string> := [
    "为什么会出现这种情况？",
    "为什么之前的控制措施没有生效？",
    "为什么系统没有检测到这个问题？",
    "为什么预防措施不够完善？"
  ]

  const WhyPrefix := "为什么 "
  const WhySuffix := "？"

  /** `generate_five_whys`: the problem turned into the first question, then the fixed follow-ups. */
  function GenerateFiveWhys(problem: string): (whys: seq<string>)
    ensures |whys| == 5
    ensures whys[0] == WhyPrefix + problem + WhySuffix
    ensures whys[1..] == FollowUpWhys
  {
    [WhyPrefix + problem + WhySuffix] + FollowUpWhys
  }
}

=== FILE: eight_d_props.dfy ===
/**
 Properties of the 8D collector: what the completion report lists and counts,
 how successive collections combine, and what the 5-Why template keeps of the problem.
 */
module EightDProperties {
  import opened Seqs
  import opened Strings
  import opened EightDReport

  /** The report key `f"D{i}"` of stage number `i` is that stage's name. */
  lemma StageKeyIsStage(i: nat)
    requires i < |Stages|
    ensures StageKey(i) == Stages[i]
  {
    assert NatToString(i) == [Digit(i)];
  }

  /** Different stage numbers give different report keys. */
  lemma StageKeyInjective(i: nat, j: nat)
    requires StageKey(i) == StageKey(j)
    ensures i == j
  {
    assert StageKey(i)[1..] == NatToString(i);
    assert StageKey(j)[1..] == NatToString(j);
  }

  /**
   The completion report lists D0–D7, each done exactly when collected and
   pending otherwise, then the ratio; `D8` is never among its keys.
   */
  lemma CompletionReportShape(data: ReportData)
    ensures var r := CheckCompletionStatus(data);
            && |r| == 9
            && (forall i :: 0 <= i < 8 ==> r[i].0 == Stages[i])
            && (forall i :: 0 <= i < 8 ==> (r[i].1 == DoneMark <==> Stages[i] in data))
            && (forall i :: 0 <= i < 8 ==> (r[i].1 == PendingMark <==> Stages[i] !in data))
            && r[8].0 == RatioKey
            && (forall e :: e in r ==> e.0 != "D8")
  {
    var r := CheckCompletionStatus(data);
    forall i | 0 <= i < 8
      ensures r[i].0 == Stages[i]
    {
      StageKeyIsStage(i);
    }
    forall e | e in r
      ensures e.0 != "D8"
    {
      var i :| 0 <= i < |r| && r[i] == e;
      if i < 8 && StageKey(i) == "D8" {
        StageKeyIsStage(8);
        StageKeyInjective(i, 8);
      }
    }
  }

  /** How many entries of a report read "done". */
  function DoneCount(es: seq<(string, string)>): nat
  {
    if |es| == 0 then 0 else (if es[0].1 == DoneMark then 1 else 0) + DoneCount(es[1..])
  }

  lemma {:induction false} DoneCountAppend(a: seq<(string, string)>, b: seq<(string, string)>)
    ensures DoneCount(a + b) == DoneCount(a) + DoneCount(b)
    decreases |a|
  {
    if |a| == 0 {
      assert a + b == b;
    } else {
      assert (a + b)[1..] == a[1..] + b;
      DoneCountAppend(a[1..], b);
    }
  }

  /** A report whose entries are done exactly when their key is in `s` counts the keys in `s`. */
  lemma {:induction false} DoneCountIsCountIn(es: seq<(string, string)>, ks: seq<string>, s: set<string>)
    requires |es| == |ks|
    requires forall i :: 0 <= i < |es| ==> (es[i].1 == DoneMark <==> ks[i] in s)
    ensures DoneCount(es) == CountIn(ks, s)
    decreases |es|
  {
    if |es| > 0 {
      DoneCountIsCountIn(es[1..], ks[1..], s);
    }
  }

  /** Collecting only ever adds stage names as keys. */
  lemma CollectKeepsStageKeys(data: ReportData, phase: string, input: Input)
    requires data.Keys <= ToSet(Stages)
    ensures CollectInformation(data, phase, input).data.Keys <= ToSet(Stages)
  {
  }

  /** The done entries of the report count the collected stages among D0–D7. */
  lemma ListedDoneCount(data: ReportData)
    ensures DoneCount(CheckCompletionStatus(data)) == CountIn(Stages[..8], data.Keys)
  {
    var r := CheckCompletionStatus(data);
    CompletionReportShape(data);
    DoneCountIsCountIn(r[..8], Stages[..8], data.Keys);
    assert r == r[..8] + [r[8]];
    DoneCountAppend(r[..8], [r[8]]);
    assert r[8].1 != DoneMark by {
      assert r[8].1[|r[8].1| - 1] == '8';
    }
  }

  /** Of a set drawn from `listed` plus one more element `x`, the part inside `listed` misses only `x`. */
  lemma OverlapMissesOne<T>(listed: set<T>, keys: set<T>, x: T)
    requires x !in listed && keys <= listed + {x}
    ensures |listed * keys| + (if x in keys then 1 else 0) == |keys|
  {
    if x in keys {
      assert keys == (listed * keys) + {x};
    } else {
      assert keys == listed * keys;
    }
  }

  lemma ListedStages()
    ensures NoDup(Stages[..8])
    ensures "D8" !in ToSet(Stages[..8])
    ensures ToSet(Stages) == ToSet(Stages[..8]) + {"D8"}
  {
  }

  /**
   The ratio's numerator is the number of collected stages, D8 included, while
   only D0–D7 are listed: the done entries fall one short of it once D8 is in.
   */
  lemma RatioCountsD8(data: ReportData)
    requires data.Keys <= ToSet(Stages)
    ensures DoneCount(CheckCompletionStatus(data)) + (if "D8" in data then 1 else 0) == |data|
  {
    ListedDoneCount(data);
    ListedStages();
    CountInIsOverlap(Stages[..8], data.Keys);
    OverlapMissesOne(ToSet(Stages[..8]), data.Keys, "D8");
  }

  /** With all nine stages collected the ratio reads `9/8`, though only eight stages are listed as done. */
  lemma RatioReadsNineOfEight(data: ReportData)
    requires data.Keys == ToSet(Stages)
    ensures CheckCompletionStatus(data)[8].1 == "9/8"
    ensures DoneCount(CheckCompletionStatus(data)) == 8
  {
    AllStagesCount(data);
    RatioNumerals();
    RatioCountsD8(data);
  }

  lemma AllStagesCount(data: ReportData)
    requires data.Keys == ToSet(Stages)
    ensures |data| == 9 && "D8" in data
  {
    NoDupSetSize(Stages);
  }

  lemma RatioNumerals()
    ensures NatToString(9) + "/" + NatToString(8) == "9/8"
  {
    assert NatToString(9) == "9" && NatToString(8) == "8";
  }

  /** Collecting the same input twice leaves what collecting it once leaves. */
  lemma CollectIdempotent(data: ReportData, phase: string, input: Input)
    ensures var once := CollectInformation(data, phase, input);
            CollectInformation(once.data, phase, input) == once
  {
    var once := CollectInformation(data, phase, input);
    if once.ok {
      assert CollectInformation(once.data, phase, input).data == once.data;
    }
  }

  /** A later successful collection of a stage replaces whatever an earlier one stored. */
  lemma CollectOverwrites(data: ReportData, phase: string, first: Input, second: Input)
    requires CollectInformation(data, phase, second).ok
    ensures CollectInformation(CollectInformation(data, phase, first).data, phase, second)
            == CollectInformation(data, phase, second)
  {
    var later := CollectInformation(CollectInformation(data, phase, first).data, phase, second);
    assert later.data == CollectInformation(data, phase, second).data;
  }

  /** Whether a collection succeeds depends on the stage and the input only; success is a single map update. */
  lemma CollectIsUpdate(data: ReportData, phase: string, input: Input)
    ensures var r := CollectInformation(data, phase, input);
            && r.ok == CollectInformation(map[], phase, input).ok
            && r.data == if r.ok then data[phase := StageRecord(phase, input)] else data
  {
    var r := CollectInformation(data, phase, input);
    if r.ok {
      assert r.data == data[phase := StageRecord(phase, input)];
    }
  }

  /** Collections for two different stages can happen in either order. */
  lemma CollectCommutes(data: ReportData, p: string, a: Input, q: string, b: Input)
    requires p != q
    ensures CollectInformation(CollectInformation(data, p, a).data, q, b).data
            == CollectInformation(CollectInformation(data, q, b).data, p, a).data
  {
    var dp := CollectInformation(data, p, a).data;
    var dq := CollectInformation(data, q, b).data;
    CollectIsUpdate(data, p, a);
    CollectIsUpdate(data, q, b);
    CollectIsUpdate(dp, q, b);
    CollectIsUpdate(dq, p, a);
    UpdatesCommute(data, p, StageRecord(p, a), q, StageRecord(q, b));
  }

  lemma UpdatesCommute<K, V>(m: map<K, V>, p: K, x: V, q: K, y: V)
    requires p != q
    ensures m[p := x][q := y] == m[q := y][p := x]
  {
  }

  /**
   An input with every required field and one key more is still rejected:
   the record type refuses the unknown key and the data stays as it was.
   */
  lemma ExtraKeyRejected(data: ReportData, phase: string, input: Input, extra: string)
    requires phase in Stages
    requires forall f :: f in RequiredFields(phase) ==> f in input
    requires extra in input && extra !in RequiredFields(phase)
    ensures CollectInformation(data, phase, input) == Collection(false, data)
  {
    assert extra !in ToSet(RequiredFields(phase));
  }

  /** The first why quotes the problem exactly: cutting off the fixed prefix and suffix gives it back. */
  lemma FiveWhysQuoteProblem(problem: string)
    ensures var first := GenerateFiveWhys(problem)[0];
            |first| == |WhyPrefix| + |problem| + |WhySuffix|
            && first[|WhyPrefix|..|first| - |WhySuffix|] == problem
  {
    var first := GenerateFiveWhys(problem)[0];
    assert first == WhyPrefix + problem + WhySuffix;
    assert first[|WhyPrefix|..|first| - |WhySuffix|] == problem;
  }

  /** Different problems give different 5-Why lists, and the last four whys never depend on the problem. */
  lemma FiveWhysInjective(p: string, q: string)
    ensures GenerateFiveWhys(p) == GenerateFiveWhys(q) <==> p == q
    ensures GenerateFiveWhys(p)[1..] == GenerateFiveWhys(q)[1..]
  {
    if GenerateFiveWhys(p) == GenerateFiveWhys(q) {
      FiveWhysQuoteProblem(p);
      FiveWhysQuoteProblem(q);
    }
  }

  /** Every entry of the 5-Why list is a "why" question. */
  lemma FiveWhysAreWhys(problem: string)
    ensures forall w :: w in GenerateFiveWhys(problem) ==> |w| >= 3 && w[..3] == "为什么"
  {
    var whys := GenerateFiveWhys(problem);
    assert whys[0][..3] == "为什么";
    forall w | w in whys
      ensures |w| >= 3 && w[..3] == "为什么"
    {
      var i :| 0 <= i < |whys| && whys[i] == w;
      assert i == 0 || w == FollowUpWhys[i - 1];
    }
  }
}

=== FILE: interviewer.dfy ===
/**
 The guided 5W1H interview engine (`FiveWInterviewer` in
 scripts/five_w_interviewer.py) as pure transitions over an immutable session.
 Wall-clock readings are passed in as `Instant` values.
 */
module FiveWInterviewer {

  import opened Wrappers
  import opened Seqs
  import opened Strings
  import opened QuestionCatalog
  import opened Responses

  /** The reserved key under which the free-text problem statement is stored. */
  const InitialProblemId: string := "initial_problem"
  /** `process_response`'s default confidence label. */
  const DefaultConfidence: string := "medium"
  /** The two substrings that mark an answer as a key finding: "cause" and "led to". */
  const CauseMarker: string := "原因"
  const LedToMarker: string := "导致"

  /** One reading of the clock, in the two renderings the source uses (`isoformat()` and `strftime`). */
  datatype Instant = Instant(iso: string, display: string)

  /** The interviewer's mutable fields `current_phase`, `questions_asked` and `responses`. */
  datatype Session = Session(currentPhase: string, questionsAsked: seq<string>, responses: Responses)

  datatype StartResult = Started(currentPhase: string, nextQuestion: Option<Question>, progress: string)
  datatype StartOutcome = StartOutcome(session: Session, result: StartResult)

  /** `_check_phase_completion`'s dictionary; an unknown phase yields only `is_complete: False`. */
  datatype Completion =
    | UnknownPhase
    | Evaluated(isComplete: bool, answeredCount: nat, totalCount: nat, summary: string)
  {
    predicate IsComplete() { Evaluated? && isComplete }
  }

  /** One `问题分析` entry of the summary. */
  datatype Analysis = Analysis(answer: string, confidence: string, evidence: seq<string>)

  /** `generate_interview_summary`: `访谈完成时间`, `访谈阶段`, `问题分析`, `关键发现`, `建议措施`. */
  datatype InterviewSummary = InterviewSummary(
    completedAt: string,
    stages: seq<string>,
    analysis: seq<(string, Analysis)>,
    keyFindings: seq<string>,
    recommendations: seq<string>)

  /** The three dictionaries `process_response` can return, by `status`. */
  datatype StepResult =
    | PhaseComplete(phaseSummary: string, nextPhase: string, nextQuestion: Option<Question>, progress: string)
    | QuestionAnswered(question: Question, progress: string)
    | InterviewComplete(summary: InterviewSummary, progress: string)

  datatype Step = Step(session: Session, result: StepResult)

  /** The `status` field of a `process_response` result. */
  function Status(r: StepResult): (st: string)
    ensures st == "phase_complete" <==> r.PhaseComplete?
    ensures st == "question_answered" <==> r.QuestionAnswered?
    ensures st == "interview_complete" <==> r.InterviewComplete?
  {
    match r
    case PhaseComplete(_, _, _, _) => "phase_complete"
    case QuestionAnswered(_, _) => "question_answered"
    case InterviewComplete(_, _) => "interview_complete"
  }

  /** One `对话历史` entry of the export: `{问题ID, 回答}`. */
  datatype HistoryEntry = HistoryEntry(questionId: string, response: UserResponse)

  /** The in-memory document `export_conversation` serializes. */
  datatype ExportRecord = ExportRecord(
    startedAt: string,
    completedAt: string,
    currentPhase: string,
    history: seq<HistoryEntry>,
    summary: InterviewSummary)

  /** The state `__init__` leaves behind, before any interview is started. */
  function NewInterviewer(): (r: Session)
    ensures r.currentPhase == Initial && r.questionsAsked == [] && |r.responses| == 0
    ensures NextQuestionId(r) == Some("what_problem")
  {
    Session(Initial, [], [])
  }

  /** The question ids of the session's current phase, in catalog order; empty for an unknown phase. */
  function CurrentIds(s: Session): (ids: seq<string>)
    ensures forall id :: id in ids ==> id in CatalogIds
    ensures s.currentPhase in PhaseOrder ==> ids == FindPhase(s.currentPhase).value.questionIds
    ensures s.currentPhase !in PhaseOrder ==> ids == []
  {
    match FindPhase(s.currentPhase)
    case Some(p) => p.questionIds
    case None => []
  }

  /** The loop of `get_next_question`: the first id, in catalog order, that has not been asked. */
  function FirstUnasked(ids: seq<string>, asked: seq<string>): (r: Option<string>)
    ensures r.Some? <==> exists i :: 0 <= i < |ids| && ids[i] !in asked
    ensures r.Some? ==> r.value !in asked
    ensures r.Some? ==> exists i :: 0 <= i < |ids| && ids[i] == r.value
                                   && forall j :: 0 <= j < i ==> ids[j] in asked
  {
    if |ids| == 0 then None
    else if ids[0] !in asked then Some(ids[0])
    else
      var r := FirstUnasked(ids[1..], asked);
      assert forall i :: 0 < i < |ids| ==> ids[i] == ids[1..][i - 1];
      if r.Some? then
        var k :| 0 <= k < |ids[1..]| && ids[1..][k] == r.value
                 && forall j :: 0 <= j < k ==> ids[1..][j] in asked;
        assert ids[k + 1] == r.value;
        assert forall j :: 0 <= j < k + 1 ==> ids[j] in asked by {
          forall j | 0 <= j < k + 1 ensures ids[j] in asked {
            if j > 0 { assert ids[j] == ids[1..][j - 1]; }
          }
        }
        r
      else
        r
  }

  /** The id `get_next_question` would hand out. */
  function NextQuestionId(s: Session): (r: Option<string>)
    ensures r.Some? ==> r.value in CurrentIds(s)
  {
    FirstUnasked(CurrentIds(s), s.questionsAsked)
  }

  /** `get_next_question`: the full record of the next question. */
  function NextQuestion(s: Session): (r: Option<Question>)
    ensures r.Some? <==> NextQuestionId(s).Some?
    ensures r.Some? ==> r.value.id == NextQuestionId(s).value
    ensures r.Some? ==> r.value == Definition(r.value.id)
  {
    match NextQuestionId(s)
    case Some(id) => Some(Definition(id))
    case None => None
  }

  /** `start_interview`: discard the session, record the problem statement, ask the first question. */
  function Start(problem: string, now: Instant): (r: StartOutcome)
    ensures r.session.currentPhase == Initial
    ensures r.session.questionsAsked == []
    ensures Keys(r.session.responses) == [InitialProblemId]
    ensures Get(r.session.responses, InitialProblemId)
            == Some(UserResponse(InitialProblemId, problem, [], "initial", [], now.iso))
    ensures r.result.currentPhase == Initial
    ensures r.result.nextQuestion.Some? && r.result.nextQuestion.value.id == "what_problem"
    ensures r.result.nextQuestion == Some(Definition("what_problem"))
    ensures r.result.progress == "初始问题已记录，开始5W1H追问"
  {
    var initialResponse := UserResponse(InitialProblemId, problem, [], "initial", [], now.iso);
    var s := Session(Initial, [], Put([], InitialProblemId, initialResponse));
    StartOutcome(s, Started(s.currentPhase, NextQuestion(s), "初始问题已记录，开始5W1H追问"))
  }

  /** The number of distinct phase ids present in the asked list (`answered_count`). */
  function AnsweredCount(ids: seq<string>, asked: seq<string>): nat
  {
    CountIn(ids, ToSet(asked))
  }

  /**
   Reference definition of phase completion: the phase is in the catalog and at
   least 80% of its distinct question ids have been asked, in exact arithmetic.
   */
  predicate PhaseIsComplete(phase: string, asked: seq<string>)
  {
    && FindPhase(phase).Some?
    && var ids := FindPhase(phase).value.questionIds;
       5 * |ToSet(ids) * ToSet(asked)| >= 4 * |ids|
  }

  /** `_check_phase_completion`. */
  function CheckPhaseCompletion(s: Session): (r: Completion)
    ensures r.UnknownPhase? <==> s.currentPhase !in PhaseOrder
    ensures r.IsComplete() <==> PhaseIsComplete(s.currentPhase, s.questionsAsked)
    ensures r.Evaluated? ==> r.answeredCount <= r.totalCount == |CurrentIds(s)|
    ensures r.Evaluated? ==> r.answeredCount == |ToSet(CurrentIds(s)) * ToSet(s.questionsAsked)|
    ensures r.Evaluated? ==>
              r.summary == FindPhase(s.currentPhase).value.description + " - " + NatToString(r.answeredCount)
                           + "/" + NatToString(r.totalCount) + " 问题已完成"
    ensures s.currentPhase == Initial ==> (r.IsComplete() <==> r.answeredCount >= 4)
    ensures s.currentPhase == RootCause ==> (r.IsComplete() <==> r.answeredCount >= 3)
    ensures s.currentPhase == Prevention ==> (r.IsComplete() <==> r.answeredCount >= 1)
  {
    match FindPhase(s.currentPhase)
    case None => UnknownPhase
    case Some(p) =>
      var ids := p.questionIds;
      var answered := AnsweredCount(ids, s.questionsAsked);
      var total := |ids|;
      PhaseIdsDistinct(s.currentPhase);
      CountInIsOverlap(ids, ToSet(s.questionsAsked));
      assert ToSet(ids) * ToSet(s.questionsAsked) == ToSet(ids) * set x | x in s.questionsAsked;
      PhaseSizes();
      // `answered_count >= total_count * 0.8`, exact for the totals 5, 3 and 1
      Evaluated(5 * answered >= 4 * total, answered, total,
                p.description + " - " + NatToString(answered) + "/" + NatToString(total) + " 问题已完成")
  }

  /** The question's phase still has a question whose id has not been asked. */
  predicate HasUnasked(s: Session)
  {
    exists i :: 0 <= i < |CurrentIds(s)| && CurrentIds(s)[i] !in s.questionsAsked
  }

  /** The first half of `process_response`: store the answer and append the id, unchecked. */
  function Record(s: Session, questionId: string, answer: string, details: seq<string>,
                  confidence: string, evidence: seq<string>, now: Instant): (r: Session)
    ensures r.currentPhase == s.currentPhase
    ensures r.questionsAsked == s.questionsAsked + [questionId]
    ensures Get(r.responses, questionId) == Some(UserResponse(questionId, answer, details, confidence, evidence, now.iso))
    ensures forall k :: k != questionId ==> Get(r.responses, k) == Get(s.responses, k)
  {
    var response := UserResponse(questionId, answer, details, confidence, evidence, now.iso);
    s.(responses := Put(s.responses, questionId, response),
       questionsAsked := s.questionsAsked + [questionId])
  }

  /** `process_response`. */
  function ProcessResponse(s: Session, questionId: string, answer: string, details: seq<string>,
                           confidence: string, evidence: seq<string>, now: Instant): (r: Step)
    ensures r.session.questionsAsked == s.questionsAsked + [questionId]
    ensures Get(r.session.responses, questionId)
            == Some(UserResponse(questionId, answer, details, confidence, evidence, now.iso))
    ensures forall k :: k != questionId ==> Get(r.session.responses, k) == Get(s.responses, k)
    ensures Keys(r.session.responses)
            == if questionId in Keys(s.responses) then Keys(s.responses) else Keys(s.responses) + [questionId]
    ensures r.result.PhaseComplete? <==>
              PhaseIsComplete(s.currentPhase, s.questionsAsked + [questionId])
              && NextPhase(s.currentPhase).Some?
    ensures r.result.PhaseComplete? ==>
              && Some(r.session.currentPhase) == NextPhase(s.currentPhase)
              && r.result.nextPhase == r.session.currentPhase
              && r.result.nextQuestion == NextQuestion(r.session)
    ensures r.result.PhaseComplete? ==>
              && r.result.phaseSummary
                 == CheckPhaseCompletion(Record(s, questionId, answer, details, confidence, evidence, now)).summary
              && r.result.progress == r.result.phaseSummary + "，准备进入" + r.result.nextPhase + "阶段"
    ensures !r.result.PhaseComplete? ==> r.session.currentPhase == s.currentPhase
    ensures r.result.QuestionAnswered? <==> !r.result.PhaseComplete? && HasUnasked(r.session)
    ensures r.result.QuestionAnswered? ==> NextQuestion(r.session) == Some(r.result.question)
    ensures r.result.QuestionAnswered? ==> r.result.progress == "问题" + questionId + "已回答，准备下一个问题"
    ensures r.result.QuestionAnswered? ==>
              r.result.question.id !in r.session.questionsAsked
              && r.result.question.id in CurrentIds(r.session)
    ensures r.result.InterviewComplete? ==> r.result.summary == Summary(r.session, now.display)
    ensures r.result.InterviewComplete? ==> r.result.progress == "所有阶段的问题都已完成"
  {
    var s1 := Record(s, questionId, answer, details, confidence, evidence, now);
    var completion := CheckPhaseCompletion(s1);
    var next := NextPhase(s1.currentPhase);
    if completion.IsComplete() && next.Some? then
      var s2 := s1.(currentPhase := next.value);
      Step(s2, PhaseComplete(completion.summary, s2.currentPhase, NextQuestion(s2),
                             completion.summary + "，准备进入" + next.value + "阶段"))
    else
      match NextQuestion(s1)
      case Some(q) => Step(s1, QuestionAnswered(q, "问题" + questionId + "已回答，准备下一个问题"))
      case None => Step(s1, InterviewComplete(Summary(s1, now.display), "所有阶段的问题都已完成"))
  }

  /** `get_remaining_questions`: texts of the unasked questions of the current phase, in order. */
  function UnaskedTexts(ids: seq<string>, asked: seq<string>): (r: seq<string>)
    requires forall id :: id in ids ==> id in CatalogIds
    ensures |r| <= |ids|
    ensures forall t :: t in r ==> exists i :: 0 <= i < |ids| && Definition(ids[i]).text == t && ids[i] !in asked
    ensures forall i :: 0 <= i < |ids| && ids[i] !in asked ==> Definition(ids[i]).text in r
  {
    if |ids| == 0 then []
    else
      var rest := UnaskedTexts(ids[1..], asked);
      assert forall i :: 0 < i < |ids| ==> ids[i] == ids[1..][i - 1];
      if ids[0] !in asked then [Definition(ids[0]).text] + rest else rest
  }

  /** `get_remaining_questions` on the session: the current phase's unasked texts, or none for an unknown phase. */
  function RemainingQuestions(s: Session): (r: seq<string>)
    ensures s.currentPhase !in PhaseOrder ==> r == []
    ensures s.currentPhase in PhaseOrder ==> r == UnaskedTexts(CurrentIds(s), s.questionsAsked)
    ensures forall i :: 0 <= i < |CurrentIds(s)| && CurrentIds(s)[i] !in s.questionsAsked ==>
              Definition(CurrentIds(s)[i]).text in r
    ensures forall t :: t in r ==> exists i :: 0 <= i < |CurrentIds(s)| && CurrentIds(s)[i] !in s.questionsAsked
                                             && Definition(CurrentIds(s)[i]).text == t
  {
    UnaskedTexts(CurrentIds(s), s.questionsAsked)
  }

  /** The substring heuristic of the summary: the answer mentions a cause. */
  predicate IsKeyFinding(answer: string)
  {
    Contains(answer, CauseMarker) || Contains(answer, LedToMarker)
  }

  /** `关键发现`: every answer text, in response order, that passes the heuristic. */
  function KeyFindings(rs: Responses): (r: seq<string>)
    ensures |r| <= |rs|
    ensures forall t :: t in r ==> IsKeyFinding(t)
    ensures forall i :: 0 <= i < |rs| && IsKeyFinding(rs[i].1.answerText) ==> rs[i].1.answerText in r
  {
    if |rs| == 0 then []
    else
      var rest := KeyFindings(rs[1..]);
      assert forall i :: 0 < i < |rs| ==> rs[i] == rs[1..][i - 1];
      if IsKeyFinding(rs[0].1.answerText) then [rs[0].1.answerText] + rest else rest
  }

  /** `问题分析`: one entry per response, in response order. */
  function Analyses(rs: Responses): (r: seq<(string, Analysis)>)
    ensures |r| == |rs|
    ensures forall i :: 0 <= i < |rs| ==>
              r[i] == (rs[i].0, Analysis(rs[i].1.answerText, rs[i].1.confidenceLevel, rs[i].1.supportingEvidence))
  {
    if |rs| == 0 then []
    else
      var a := Analysis(rs[0].1.answerText, rs[0].1.confidenceLevel, rs[0].1.supportingEvidence);
      [(rs[0].0, a)] + Analyses(rs[1..])
  }

  /** `generate_interview_summary`, with the clock reading as a parameter. */
  function Summary(s: Session, completedAt: string): (r: InterviewSummary)
    ensures r.completedAt == completedAt
    ensures |r.stages| == |r.analysis| == |s.responses|
    ensures forall i :: 0 <= i < |s.responses| ==> r.stages[i] == r.analysis[i].0 == s.responses[i].0
    ensures forall t :: t in r.keyFindings ==> IsKeyFinding(t)
    ensures r.keyFindings == KeyFindings(s.responses)
    ensures r.analysis == Analyses(s.responses)
    ensures r.recommendations == []
  {
    InterviewSummary(completedAt, Keys(s.responses), Analyses(s.responses), KeyFindings(s.responses), [])
  }

  /** `对话历史`: one `{问题ID, 回答}` entry per response, in response order. */
  function History(rs: Responses): (h: seq<HistoryEntry>)
    ensures |h| == |rs|
    ensures forall i :: 0 <= i < |rs| ==> h[i] == HistoryEntry(rs[i].0, rs[i].1)
  {
    if |rs| == 0 then [] else [HistoryEntry(rs[0].0, rs[0].1)] + History(rs[1..])
  }

  /**
   The document `export_conversation` builds before writing it. The start time is
   the stored problem statement's timestamp, which exists once an interview has
   been started (before that the source fails on the missing entry).
   */
  function Export(s: Session, now: Instant): (r: ExportRecord)
    requires InitialProblemId in Keys(s.responses)
    ensures r.startedAt == Get(s.responses, InitialProblemId).value.timestamp
    ensures r.completedAt == now.iso
    ensures r.summary == Summary(s, now.display)
    ensures r.currentPhase == s.currentPhase
    ensures |r.history| == |s.responses| == |r.summary.stages|
    ensures forall i :: 0 <= i < |r.history| ==> r.history[i].questionId == s.responses[i].0
    ensures forall i :: 0 <= i < |r.history| ==> r.history[i].questionId == r.summary.stages[i]
    ensures forall i :: 0 <= i < |r.history| ==> r.history[i].response == s.responses[i].1
  {
    var h := History(s.responses);
    var sm := Summary(s, now.display);
    assert |h| == |sm.stages|;
    assert forall i :: 0 <= i < |h| ==> h[i].questionId == sm.stages[i];
    ExportRecord(Get(s.responses, InitialProblemId).value.timestamp, now.iso, s.currentPhase, h, sm)
  }
}

=== FILE: interviewer_props.dfy ===
/**
 Properties of the 5W1H interview engine over sequences of calls: the session
 invariant, forward-only phase movement, duplicate-insensitive completion, the
 agreement of the next question with the remaining-question list, the shape of
 the summary and export, and an end-to-end run in catalog order.
 */
module InterviewerProperties {

  import opened Wrappers
  import opened Seqs
  import opened QuestionCatalog
  import opened Responses
  import opened FiveWInterviewer

  /** Every stored response carries the id it is stored under. */
  predicate WellKeyed(rs: Responses)
  {
    forall k :: k in Keys(rs) ==> Get(rs, k).value.questionId == k
  }

  /**
   The session invariant: the phase is one of the three, and the response keys
   are `initial_problem` followed by the asked ids in first-asked order, each once.
   */
  predicate Valid(s: Session)
  {
    && s.currentPhase in PhaseOrder
    && Keys(s.responses) == Dedup([InitialProblemId] + s.questionsAsked)
    && WellKeyed(s.responses)
  }

  lemma StartIsValid(problem: string, now: Instant)
    ensures Valid(Start(problem, now).session)
  {
    var s := Start(problem, now).session;
    assert [InitialProblemId] + s.questionsAsked == [InitialProblemId];
    DedupOfNoDup([InitialProblemId]);
  }

  /** `process_response` keeps the invariant, whatever id it is given. */
  lemma ProcessResponsePreservesValid(s: Session, questionId: string, answer: string, details: seq<string>,
                                      confidence: string, evidence: seq<string>, now: Instant)
    requires Valid(s)
    ensures Valid(ProcessResponse(s, questionId, answer, details, confidence, evidence, now).session)
  {
    var s' := ProcessResponse(s, questionId, answer, details, confidence, evidence, now).session;
    KeyOrderStep(s.responses, s'.responses, s.questionsAsked, questionId);
    WellKeyedStep(s.responses, s'.responses, questionId);
  }

  /** The key-order part of the invariant survives one stored answer. */
  lemma KeyOrderStep(rs: Responses, rs': Responses, asked: seq<string>, questionId: string)
    requires Keys(rs) == Dedup([InitialProblemId] + asked)
    requires Keys(rs') == if questionId in Keys(rs) then Keys(rs) else Keys(rs) + [questionId]
    ensures Keys(rs') == Dedup([InitialProblemId] + (asked + [questionId]))
  {
    DedupConsSnoc(InitialProblemId, asked, questionId);
  }

  /** Storing a response under its own id keeps every entry keyed by its id. */
  lemma WellKeyedStep(rs: Responses, rs': Responses, questionId: string)
    requires WellKeyed(rs)
    requires Get(rs', questionId).Some? && Get(rs', questionId).value.questionId == questionId
    requires forall k :: k != questionId ==> Get(rs', k) == Get(rs, k)
    ensures WellKeyed(rs')
  {
    forall k | k in Keys(rs')
      ensures Get(rs', k).value.questionId == k
    {
      if k != questionId {
        assert Get(rs, k).Some?;
      }
    }
  }

  /**
   The phase stays within the three and only ever moves to its successor. This
   holds for every session in a known phase, including one answered before
   `start_interview` (whose phase `__init__` sets to `initial`).
   */
  lemma PhaseNeverMovesBackward(s: Session, questionId: string, answer: string, details: seq<string>,
                                confidence: string, evidence: seq<string>, now: Instant)
    requires s.currentPhase in PhaseOrder
    ensures var s' := ProcessResponse(s, questionId, answer, details, confidence, evidence, now).session;
            && s'.currentPhase in PhaseOrder
            && (Rank(s'.currentPhase) == Rank(s.currentPhase) || Rank(s'.currentPhase) == Rank(s.currentPhase) + 1)
  {
  }

  /** The response keys are exactly `initial_problem` and the asked ids, each once, `initial_problem` first. */
  lemma {:induction false} ResponseKeysAreAskedIds(s: Session)
    requires Valid(s)
    ensures NoDup(Keys(s.responses))
    ensures |s.responses| >= 1 && Keys(s.responses)[0] == InitialProblemId
    ensures forall k :: k in Keys(s.responses) <==> k == InitialProblemId || k in s.questionsAsked
  {
    DedupHead(InitialProblemId, s.questionsAsked);
    assert forall k :: k in [InitialProblemId] + s.questionsAsked <==> k == InitialProblemId || k in s.questionsAsked;
  }

  /** Re-answering an id, or answering an id outside the phase, does not advance completion. */
  lemma {:induction false} RepeatedOrForeignIdsDoNotCount(phase: string, asked: seq<string>, x: string)
    requires phase in PhaseOrder
    requires x in asked || x !in FindPhase(phase).value.questionIds
    ensures PhaseIsComplete(phase, asked + [x]) <==> PhaseIsComplete(phase, asked)
  {
    var ids := ToSet(FindPhase(phase).value.questionIds);
    assert ids * ToSet(asked + [x]) == ids * ToSet(asked);
  }

  /** Answering every question of a phase completes it. */
  lemma {:induction false} AllAskedIsComplete(s: Session)
    requires s.currentPhase in PhaseOrder
    requires !HasUnasked(s)
    ensures PhaseIsComplete(s.currentPhase, s.questionsAsked)
  {
    var ids := CurrentIds(s);
    PhaseIdsDistinct(s.currentPhase);
    assert ToSet(ids) * ToSet(s.questionsAsked) == ToSet(ids);
    CountInIsOverlap(ids, ToSet(ids));
    CountInIsOverlap(ids, ToSet(s.questionsAsked));
    CountAll(ids, ToSet(ids));
  }

  /**
   From any session in a known phase, started or not, `interview_complete` comes only out of the last phase,
   once its questions are all asked; earlier phases always hand over with `phase_complete`.
   */
  lemma InterviewCompleteOnlyAtPrevention(s: Session, questionId: string, answer: string, details: seq<string>,
                                          confidence: string, evidence: seq<string>, now: Instant)
    requires s.currentPhase in PhaseOrder
    requires ProcessResponse(s, questionId, answer, details, confidence, evidence, now).result.InterviewComplete?
    ensures s.currentPhase == Prevention
    ensures !HasUnasked(ProcessResponse(s, questionId, answer, details, confidence, evidence, now).session)
  {
    var s' := ProcessResponse(s, questionId, answer, details, confidence, evidence, now).session;
    AllAskedIsComplete(s');
  }

  /** The next question is the head of the remaining-question list, and absent exactly when that list is empty. */
  lemma {:induction false} NextQuestionHeadsRemaining(ids: seq<string>, asked: seq<string>)
    requires forall id :: id in ids ==> id in CatalogIds
    ensures FirstUnasked(ids, asked).None? <==> UnaskedTexts(ids, asked) == []
    ensures FirstUnasked(ids, asked).Some? ==>
              UnaskedTexts(ids, asked)[0] == Definition(FirstUnasked(ids, asked).value).text
    decreases |ids|
  {
    if |ids| > 0 && ids[0] in asked {
      NextQuestionHeadsRemaining(ids[1..], asked);
    }
  }

  lemma NextQuestionMatchesRemaining(s: Session)
    ensures NextQuestion(s).None? <==> RemainingQuestions(s) == []
    ensures NextQuestion(s).Some? ==> RemainingQuestions(s)[0] == NextQuestion(s).value.text
  {
    NextQuestionHeadsRemaining(CurrentIds(s), s.questionsAsked);
  }

  /** With distinct keys, each entry is what a lookup of its key returns. */
  lemma {:induction false} GetAtIndex(rs: Responses, i: nat)
    requires NoDup(Keys(rs))
    requires i < |rs|
    ensures Get(rs, rs[i].0) == Some(rs[i].1)
    decreases |rs|
  {
    if i > 0 {
      assert Keys(rs[1..]) == Keys(rs)[1..];
      assert rs[0].0 != rs[i].0 by { assert Keys(rs)[0] != Keys(rs)[i]; }
      GetAtIndex(rs[1..], i - 1);
    }
  }

  /**
   The summary lists the response keys in insertion order, one analysis per
   response, the cause-marked answers (the problem statement included), and no
   recommendations.
   */
  lemma SummaryShape(s: Session, completedAt: string)
    requires Valid(s)
    ensures var sm := Summary(s, completedAt);
            && sm.stages == Keys(s.responses)
            && sm.stages[0] == InitialProblemId
            && |sm.analysis| == |sm.stages|
            && (forall i :: 0 <= i < |sm.stages| ==>
                  sm.analysis[i].0 == sm.stages[i]
                  && sm.analysis[i].1 == Analysis(Get(s.responses, sm.stages[i]).value.answerText,
                                                  Get(s.responses, sm.stages[i]).value.confidenceLevel,
                                                  Get(s.responses, sm.stages[i]).value.supportingEvidence))
            && sm.keyFindings == KeyFindings(s.responses)
            && (forall t :: t in sm.keyFindings <==>
                  exists k :: k in sm.stages && Get(s.responses, k).value.answerText == t && IsKeyFinding(t))
            && sm.recommendations == []
  {
    ResponseKeysAreAskedIds(s);
    var sm := Summary(s, completedAt);
    forall i | 0 <= i < |sm.stages|
      ensures Get(s.responses, sm.stages[i]) == Some(s.responses[i].1)
    {
      GetAtIndex(s.responses, i);
    }
    forall t | t in sm.keyFindings
      ensures exists k :: k in sm.stages && Get(s.responses, k).value.answerText == t && IsKeyFinding(t)
    {
      KeyFindingFromEntry(s.responses, t);
      var i :| 0 <= i < |s.responses| && s.responses[i].1.answerText == t;
      GetAtIndex(s.responses, i);
      assert sm.stages[i] in sm.stages;
    }
    forall t | exists k :: k in sm.stages && Get(s.responses, k).value.answerText == t && IsKeyFinding(t)
      ensures t in sm.keyFindings
    {
      var k :| k in sm.stages && Get(s.responses, k).value.answerText == t && IsKeyFinding(t);
      var i :| 0 <= i < |s.responses| && s.responses[i] == (k, Get(s.responses, k).value);
    }
  }

  /** Each key finding is the answer of some response. */
  lemma {:induction false} KeyFindingFromEntry(rs: Responses, t: string)
    requires t in KeyFindings(rs)
    ensures exists i :: 0 <= i < |rs| && rs[i].1.answerText == t
    decreases |rs|
  {
    if rs[0].1.answerText != t {
      KeyFindingFromEntry(rs[1..], t);
      var i :| 0 <= i < |rs[1..]| && rs[1..][i].1.answerText == t;
      assert rs[i + 1].1.answerText == t;
    }
  }

  /**
   The key findings are a filter of the responses: the findings of two lists of
   responses placed end to end are their findings in the same order, and one
   response contributes its answer exactly when the answer is marked.
   */
  lemma {:induction false} KeyFindingsFilter(a: Responses, b: Responses)
    ensures KeyFindings(a + b) == KeyFindings(a) + KeyFindings(b)
    ensures forall e :: KeyFindings([e]) == if IsKeyFinding(e.1.answerText) then [e.1.answerText] else []
    decreases |a|
  {
    if |a| == 0 {
      assert a + b == b;
    } else {
      assert (a + b)[1..] == a[1..] + b;
      KeyFindingsFilter(a[1..], b);
    }
    forall e: (string, UserResponse)
      ensures KeyFindings([e]) == if IsKeyFinding(e.1.answerText) then [e.1.answerText] else []
    {
      assert [e][1..] == [];
    }
  }

  /** A marked problem statement is the first key finding of the summary. */
  lemma ProblemStatementFindingFirst(s: Session, completedAt: string)
    requires Valid(s)
    requires IsKeyFinding(Get(s.responses, InitialProblemId).value.answerText)
    ensures var sm := Summary(s, completedAt);
            |sm.keyFindings| > 0 && sm.keyFindings[0] == Get(s.responses, InitialProblemId).value.answerText
  {
    ResponseKeysAreAskedIds(s);
    GetAtIndex(s.responses, 0);
    assert s.responses == [s.responses[0]] + s.responses[1..];
    KeyFindingsFilter([s.responses[0]], s.responses[1..]);
  }

  /**
   The remaining-question list is a filter of the phase's ids in catalog order:
   ids placed end to end give their lists end to end.
   */
  lemma {:induction false} UnaskedTextsFilter(a: seq<string>, b: seq<string>, asked: seq<string>)
    requires forall id :: id in a ==> id in CatalogIds
    requires forall id :: id in b ==> id in CatalogIds
    ensures UnaskedTexts(a + b, asked) == UnaskedTexts(a, asked) + UnaskedTexts(b, asked)
    decreases |a|
  {
    if |a| == 0 {
      assert a + b == b;
    } else {
      var ab := a + b;
      assert ab[0] == a[0] && ab[1..] == a[1..] + b;
      UnaskedTextsFilter(a[1..], b, asked);
      var ra, rb := UnaskedTexts(a[1..], asked), UnaskedTexts(b, asked);
      if a[0] !in asked {
        var t := Definition(a[0]).text;
        assert UnaskedTexts(ab, asked) == [t] + (ra + rb);
        assert UnaskedTexts(a, asked) == [t] + ra;
        ConsAppend(t, ra, rb);
      } else {
        assert UnaskedTexts(ab, asked) == ra + rb;
        assert UnaskedTexts(a, asked) == ra;
      }
    }
  }

  /** One id contributes its question text exactly when it has not been asked. */
  lemma UnaskedTextsOne(id: string, asked: seq<string>)
    requires id in CatalogIds
    ensures UnaskedTexts([id], asked) == if id !in asked then [Definition(id).text] else []
  {
    assert [id][1..] == [];
  }

  /** Each export history entry is the stored response under its id. */
  lemma ExportHistoryIsStored(s: Session, now: Instant)
    requires Valid(s)
    ensures InitialProblemId in Keys(s.responses)
    ensures var e := Export(s, now);
            forall i :: 0 <= i < |e.history| ==> Get(s.responses, e.history[i].questionId) == Some(e.history[i].response)
  {
    ResponseKeysAreAskedIds(s);
    var e := Export(s, now);
    forall i | 0 <= i < |e.history|
      ensures Get(s.responses, e.history[i].questionId) == Some(e.history[i].response)
    {
      GetAtIndex(s.responses, i);
    }
  }

  /** Exporting the same session twice differs only in the two completion timestamps. */
  lemma ExportTwiceDiffersOnlyInTime(s: Session, t1: Instant, t2: Instant)
    requires InitialProblemId in Keys(s.responses)
    ensures var e1 := Export(s, t1);
            var e2 := Export(s, t2);
            e1.(completedAt := t2.iso, summary := e1.summary.(completedAt := t2.display)) == e2
  {
  }

  /** When the id at position `m` is the first unasked one, it is the next question's id. */
  lemma FirstUnaskedAt(ids: seq<string>, asked: seq<string>, m: nat)
    requires m < |ids| && ids[m] !in asked
    requires forall j :: 0 <= j < m ==> ids[j] in asked
    ensures FirstUnasked(ids, asked) == Some(ids[m])
  {
    var r := FirstUnasked(ids, asked);
    var i :| 0 <= i < |ids| && ids[i] == r.value && forall j :: 0 <= j < i ==> ids[j] in asked;
  }

  /** After the first `n` questions of a phase (and ids of other phases), exactly `n` count as answered. */
  lemma {:induction false} CompletionAfterPrefix(phase: string, prev: seq<string>, n: nat)
    requires phase in PhaseOrder
    requires n <= |FindPhase(phase).value.questionIds|
    requires forall x :: x in prev ==> x !in FindPhase(phase).value.questionIds
    ensures var ids := FindPhase(phase).value.questionIds;
            PhaseIsComplete(phase, prev + ids[..n]) <==> 5 * n >= 4 * |ids|
  {
    var ids := FindPhase(phase).value.questionIds;
    PhaseIdsDistinct(phase);
    assert NoDup(ids[..n]);
    NoDupSetSize(ids[..n]);
    assert ToSet(ids) * ToSet(prev + ids[..n]) == ToSet(ids[..n]);
  }

  /** After the first `n` questions of a phase, the next id is the `n`-th, or none once all are asked. */
  lemma {:induction false} NextAfterPrefix(phase: string, prev: seq<string>, n: nat)
    requires phase in PhaseOrder
    requires n <= |FindPhase(phase).value.questionIds|
    requires forall x :: x in prev ==> x !in FindPhase(phase).value.questionIds
    ensures var ids := FindPhase(phase).value.questionIds;
            FirstUnasked(ids, prev + ids[..n]) == if n < |ids| then Some(ids[n]) else None
  {
    var ids := FindPhase(phase).value.questionIds;
    var asked := prev + ids[..n];
    PhaseIdsDistinct(phase);
    assert forall j :: 0 <= j < n ==> ids[j] in asked by {
      forall j | 0 <= j < n ensures ids[j] in asked {
        assert ids[..n][j] == ids[j];
      }
    }
    if n < |ids| {
      assert ids[n] !in asked by {
        assert ids[n] !in ids[..n];
      }
      FirstUnaskedAt(ids, asked, n);
    }
  }

  /** One answer with default details, confidence and evidence. */
  function Answer(s: Session, questionId: string, answer: string, now: Instant): Step
  {
    ProcessResponse(s, questionId, answer, [], DefaultConfidence, [], now)
  }

  /**
   Answering the current phase's questions in catalog order, after ids of other
   phases: the `k`-th answer completes the phase exactly when `k + 1` reaches
   80% of the phase, and otherwise the next catalog question is asked.
   */
  lemma AnswerInCatalogOrder(s: Session, answer: string, t: Instant, prev: seq<string>, k: nat)
    requires s.currentPhase in PhaseOrder
    requires k < |CurrentIds(s)|
    requires s.questionsAsked == prev + CurrentIds(s)[..k]
    requires forall x :: x in prev ==> x !in CurrentIds(s)
    ensures var ids := CurrentIds(s);
            var r := Answer(s, ids[k], answer, t);
            && r.session.questionsAsked == prev + ids[..k + 1]
            && (5 * (k + 1) >= 4 * |ids| && NextPhase(s.currentPhase).Some? ==>
                  r.result.PhaseComplete? && r.session.currentPhase == NextPhase(s.currentPhase).value)
            && (5 * (k + 1) < 4 * |ids| ==>
                  r.result.QuestionAnswered? && r.result.question.id == ids[k + 1]
                  && r.session.currentPhase == s.currentPhase)
            && (NextPhase(s.currentPhase).None? && k + 1 == |ids| ==>
                  r.result.InterviewComplete? && r.session.currentPhase == s.currentPhase)
  {
    var ids := CurrentIds(s);
    assert s.questionsAsked + [ids[k]] == prev + ids[..k + 1] by {
      assert ids[..k + 1] == ids[..k] + [ids[k]];
    }
    CompletionAfterPrefix(s.currentPhase, prev, k + 1);
    NextAfterPrefix(s.currentPhase, prev, k + 1);
  }


  /** What a caller sees of one answer: status, next question id, phase afterwards, summary size. */
  datatype Observation = Observation(status: string, nextId: Option<string>, phase: string, summaryEntries: nat)

  function Observe(r: Step): Observation
  {
    match r.result
    case PhaseComplete(_, _, q, _) => Observation(Status(r.result), if q.Some? then Some(q.value.id) else None,
                                                  r.session.currentPhase, 0)
    case QuestionAnswered(q, _) => Observation(Status(r.result), Some(q.id), r.session.currentPhase, 0)
    case InterviewComplete(sm, _) => Observation(Status(r.result), None, r.session.currentPhase, |sm.stages|)
  }

  /**
   The session before the `k`-th in-order answer of its phase: the phase's first
   `k` ids follow ids `prev` of other phases, and the keys are the problem
   statement followed by the asked ids, all distinct.
   */
  predicate InOrder(s: Session, prev: seq<string>, k: nat)
  {
    && s.currentPhase in PhaseOrder
    && k < |CurrentIds(s)|
    && s.questionsAsked == prev + CurrentIds(s)[..k]
    && Keys(s.responses) == [InitialProblemId] + s.questionsAsked
    && (forall x :: x in prev ==> x !in CurrentIds(s))
  }

  /** The id answered next in order has no response yet. */
  lemma FreshInOrder(s: Session, prev: seq<string>, k: nat)
    requires InOrder(s, prev, k)
    ensures CurrentIds(s)[k] !in Keys(s.responses)
  {
    var ids := CurrentIds(s);
    PhaseIdsDistinct(s.currentPhase);
    InitialProblemOutsideCatalog();
    forall j | 0 <= j < k
      ensures ids[..k][j] != ids[k]
    {
    }
  }

  /** The problem statement's key is not a catalog id. */
  lemma InitialProblemOutsideCatalog()
    ensures InitialProblemId !in CatalogIds
  {
  }

  /** An in-order answer that leaves questions of the phase within the 80% mark asks the next one. */
  lemma ObserveNextQuestion(s: Session, answer: string, t: Instant, prev: seq<string>, k: nat)
    requires InOrder(s, prev, k)
    requires 5 * (k + 1) < 4 * |CurrentIds(s)|
    ensures var ids := CurrentIds(s);
            var r := Answer(s, ids[k], answer, t);
            && r.session.questionsAsked == prev + ids[..k + 1]
            && Keys(r.session.responses) == Keys(s.responses) + [ids[k]]
            && r.session.currentPhase == s.currentPhase
            && Observe(r) == Observation("question_answered", Some(ids[k + 1]), s.currentPhase, 0)
  {
    var ids := CurrentIds(s);
    FreshInOrder(s, prev, k);
    AnswerInCatalogOrder(s, answer, t, prev, k);
  }

  /** An in-order answer that reaches the 80% mark of a phase with a successor moves the session to it. */
  lemma HandOverState(s: Session, answer: string, t: Instant, prev: seq<string>, k: nat)
    requires InOrder(s, prev, k)
    requires 5 * (k + 1) >= 4 * |CurrentIds(s)| && NextPhase(s.currentPhase).Some?
    ensures var ids := CurrentIds(s);
            var r := Answer(s, ids[k], answer, t);
            && r.result.PhaseComplete?
            && r.session.questionsAsked == prev + ids[..k + 1]
            && Keys(r.session.responses) == Keys(s.responses) + [ids[k]]
            && r.session.currentPhase == NextPhase(s.currentPhase).value
  {
    var ids := CurrentIds(s);
    FreshInOrder(s, prev, k);
    AnswerInCatalogOrder(s, answer, t, prev, k);
  }

  /** On entering a phase none of whose ids was asked, the next question is its first. */
  lemma FreshPhaseStartsAtFirst(s: Session)
    requires s.currentPhase in PhaseOrder
    requires forall x :: x in s.questionsAsked ==> x !in CurrentIds(s)
    ensures NextQuestionId(s) == Some(FirstId(s.currentPhase))
  {
    PhaseNonEmpty(s.currentPhase);
    NextAfterPrefix(s.currentPhase, s.questionsAsked, 0);
    assert s.questionsAsked + CurrentIds(s)[..0] == s.questionsAsked;
  }

  /** An in-order answer that reaches the 80% mark of a phase with a successor hands over to it. */
  lemma ObserveHandOver(s: Session, answer: string, t: Instant, prev: seq<string>, k: nat)
    requires InOrder(s, prev, k)
    requires 5 * (k + 1) >= 4 * |CurrentIds(s)| && NextPhase(s.currentPhase).Some?
    requires forall x :: x in prev + CurrentIds(s) ==> x !in FindPhase(NextPhase(s.currentPhase).value).value.questionIds
    ensures var next := NextPhase(s.currentPhase).value;
            var r := Answer(s, CurrentIds(s)[k], answer, t);
            Observe(r) == Observation("phase_complete", Some(FirstId(next)), next, 0)
  {
    var ids := CurrentIds(s);
    HandOverState(s, answer, t, prev, k);
    var r := Answer(s, ids[k], answer, t);
    assert forall x :: x in r.session.questionsAsked ==> x in prev + ids;
    FreshPhaseStartsAtFirst(r.session);
  }

  /** The last answer of the last phase ends the interview, keeping the phase and adding one key. */
  lemma FinishState(s: Session, answer: string, t: Instant, prev: seq<string>, k: nat)
    requires InOrder(s, prev, k)
    requires NextPhase(s.currentPhase).None? && k + 1 == |CurrentIds(s)|
    ensures var ids := CurrentIds(s);
            var r := Answer(s, ids[k], answer, t);
            && r.result.InterviewComplete?
            && r.session.questionsAsked == prev + ids[..k + 1]
            && Keys(r.session.responses) == Keys(s.responses) + [ids[k]]
            && r.session.currentPhase == s.currentPhase
  {
    FreshInOrder(s, prev, k);
    AnswerInCatalogOrder(s, answer, t, prev, k);
  }

  /** The interview's end reports one summary entry per response: the problem statement and every answer. */
  lemma ObserveFinish(s: Session, answer: string, t: Instant, prev: seq<string>, k: nat)
    requires InOrder(s, prev, k)
    requires NextPhase(s.currentPhase).None? && k + 1 == |CurrentIds(s)|
    ensures Observe(Answer(s, CurrentIds(s)[k], answer, t))
            == Observation("interview_complete", None, s.currentPhase, |prev| + k + 2)
  {
    FinishState(s, answer, t, prev, k);
    assert |Keys(s.responses)| == |prev| + k + 1;
  }

  /** The observations of answering `ids` in turn, starting from `s`. */
  function Trace(s: Session, answer: string, t: Instant, ids: seq<string>): seq<Observation>
    decreases |ids|
  {
    if |ids| == 0 then []
    else
      var r := Answer(s, ids[0], answer, t);
      [Observe(r)] + Trace(r.session, answer, t, ids[1..])
  }

  /** The in-order run's answers: four `initial`, three `root_cause`, one `prevention` question. */
  const RunIds: seq<string> := InitialIds[..4] + RootCauseIds + PreventionIds

  /** What the source promises for that run, answer by answer. */
  const RunExpected: seq<Observation> := [
    Observation("question_answered", Some("when_problem"), Initial, 0),
    Observation("question_answered", Some("where_problem"), Initial, 0),
    Observation("question_answered", Some("who_involved"), Initial, 0),
    Observation("phase_complete", Some("why_immediate"), RootCause, 0),
    Observation("question_answered", Some("why_systematic"), RootCause, 0),
    Observation("question_answered", Some("why_process"), RootCause, 0),
    Observation("phase_complete", Some("how_prevent"), Prevention, 0),
    Observation("interview_complete", None, Prevention, 9)
  ]

  /** The phase the run is in before its `k`-th answer. */
  function RunPhase(k: nat): string
  {
    if k < 4 then Initial else if k < 7 then RootCause else Prevention
  }

  /** The state of the run before its `k`-th answer, as far as the transitions depend on it. */
  predicate RunState(s: Session, k: nat)
  {
    && k <= |RunIds|
    && s.currentPhase == RunPhase(k)
    && s.questionsAsked == RunIds[..k]
    && Keys(s.responses) == [InitialProblemId] + RunIds[..k]
  }

  /** What the run's `k`-th answer (of the first phase) needs from the catalog. */
  lemma InitialFacts(s: Session, k: nat)
    requires k < 4 && RunState(s, k)
    ensures CurrentIds(s) == InitialIds
    ensures InOrder(s, [], k)
    ensures InitialIds[k] == RunIds[k]
    ensures [] + InitialIds[..k + 1] == RunIds[..k + 1]
    ensures Keys(s.responses) + [RunIds[k]] == [InitialProblemId] + RunIds[..k + 1]
    ensures k < 3 ==> && 5 * (k + 1) < 4 * |InitialIds| && RunPhase(k + 1) == Initial
                      && Observation("question_answered", Some(InitialIds[k + 1]), Initial, 0) == RunExpected[k]
    ensures k == 3 ==> && 5 * (k + 1) >= 4 * |InitialIds| && NextPhase(Initial) == Some(RootCause)
                       && RunPhase(k + 1) == RootCause
                       && (forall x :: x in [] + InitialIds ==> x !in FindPhase(RootCause).value.questionIds)
                       && Observation("phase_complete", Some(FirstId(RootCause)), RootCause, 0)
                          == RunExpected[k]
  {
    PhasesDisjoint();
    assert RunIds[..k] == [] + InitialIds[..k];
    assert RunIds[..k + 1] == RunIds[..k] + [RunIds[k]];
  }

  lemma InitialStep(s: Session, answer: string, t: Instant, k: nat)
    requires k < 4 && RunState(s, k)
    ensures var r := Answer(s, RunIds[k], answer, t);
            Observe(r) == RunExpected[k] && RunState(r.session, k + 1)
  {
    InitialFacts(s, k);
    if k < 3 {
      ObserveNextQuestion(s, answer, t, [], k);
    } else {
      HandOverState(s, answer, t, [], k);
      ObserveHandOver(s, answer, t, [], k);
    }
  }

  /** What the run's answers in the second phase need from the catalog. */
  lemma RootCauseFacts(s: Session, k: nat)
    requires 4 <= k < 7 && RunState(s, k)
    ensures CurrentIds(s) == RootCauseIds
    ensures InOrder(s, InitialIds[..4], k - 4)
    ensures RootCauseIds[k - 4] == RunIds[k]
    ensures InitialIds[..4] + RootCauseIds[..k - 3] == RunIds[..k + 1]
    ensures Keys(s.responses) + [RunIds[k]] == [InitialProblemId] + RunIds[..k + 1]
    ensures k < 6 ==> && 5 * (k - 3) < 4 * |RootCauseIds| && RunPhase(k + 1) == RootCause
                      && Observation("question_answered", Some(RootCauseIds[k - 3]), RootCause, 0) == RunExpected[k]
    ensures k == 6 ==> && 5 * (k - 3) >= 4 * |RootCauseIds| && NextPhase(RootCause) == Some(Prevention)
                       && RunPhase(k + 1) == Prevention
                       && (forall x :: x in InitialIds[..4] + RootCauseIds ==> x !in FindPhase(Prevention).value.questionIds)
                       && Observation("phase_complete", Some(FirstId(Prevention)), Prevention, 0)
                          == RunExpected[k]
  {
    PhasesDisjoint();
    assert RunIds[..k] == InitialIds[..4] + RootCauseIds[..k - 4];
    assert RunIds[..k + 1] == RunIds[..k] + [RunIds[k]];
    assert RootCauseIds[..k - 3] == RootCauseIds[..k - 4] + [RootCauseIds[k - 4]];
  }

  lemma RootCauseStep(s: Session, answer: string, t: Instant, k: nat)
    requires 4 <= k < 7 && RunState(s, k)
    ensures var r := Answer(s, RunIds[k], answer, t);
            Observe(r) == RunExpected[k] && RunState(r.session, k + 1)
  {
    RootCauseFacts(s, k);
    if k < 6 {
      ObserveNextQuestion(s, answer, t, InitialIds[..4], k - 4);
    } else {
      HandOverState(s, answer, t, InitialIds[..4], k - 4);
      ObserveHandOver(s, answer, t, InitialIds[..4], k - 4);
    }
  }

  /** What the run's last answer needs from the catalog. */
  lemma PreventionFacts(s: Session)
    requires RunState(s, 7)
    ensures CurrentIds(s) == PreventionIds
    ensures InOrder(s, RunIds[..7], 0)
    ensures PreventionIds[0] == RunIds[7]
    ensures RunIds[..7] + PreventionIds[..1] == RunIds[..8]
    ensures Keys(s.responses) + [RunIds[7]] == [InitialProblemId] + RunIds[..8]
    ensures NextPhase(Prevention).None? && 1 == |PreventionIds| && RunPhase(8) == Prevention
    ensures Observation("interview_complete", None, Prevention, |RunIds[..7]| + 0 + 2) == RunExpected[7]
  {
    PhasesDisjoint();
    assert RunIds[..7] + PreventionIds[..0] == RunIds[..7];
    assert RunIds[..8] == RunIds[..7] + [RunIds[7]];
  }

  lemma PreventionStep(s: Session, answer: string, t: Instant)
    requires RunState(s, 7)
    ensures var r := Answer(s, RunIds[7], answer, t);
            Observe(r) == RunExpected[7] && RunState(r.session, 8)
  {
    PreventionFacts(s);
    FinishState(s, answer, t, RunIds[..7], 0);
    ObserveFinish(s, answer, t, RunIds[..7], 0);
  }

  /** Splitting a suffix of a list into its head and the next suffix. */
  lemma DropHead<T>(xs: seq<T>, k: nat)
    requires k < |xs|
    ensures |xs[k..]| > 0 && xs[k..][0] == xs[k] && xs[k..][1..] == xs[k + 1..]
    ensures xs[k..] == [xs[k]] + xs[k + 1..]
  {
  }

  /** A trace starts with the first answer's observation and continues from the session it leaves. */
  lemma TraceStep(s: Session, answer: string, t: Instant, ids: seq<string>)
    requires |ids| > 0
    ensures Trace(s, answer, t, ids)
            == [Observe(Answer(s, ids[0], answer, t))] + Trace(Answer(s, ids[0], answer, t).session, answer, t, ids[1..])
  {
  }

  /** From the run's `k`-th state on, the remaining answers produce the remaining expected observations. */
  lemma {:induction false} TraceFrom(s: Session, answer: string, t: Instant, k: nat)
    requires RunState(s, k)
    ensures Trace(s, answer, t, RunIds[k..]) == RunExpected[k..]
    decreases |RunIds| - k
  {
    if k < |RunIds| {
      if k < 4 {
        InitialStep(s, answer, t, k);
      } else if k < 7 {
        RootCauseStep(s, answer, t, k);
      } else {
        PreventionStep(s, answer, t);
      }
      var r := Answer(s, RunIds[k], answer, t);
      TraceFrom(r.session, answer, t, k + 1);
      DropHead(RunIds, k);
      DropHead(RunExpected, k);
      TraceStep(s, answer, t, RunIds[k..]);
    } else {
      assert RunIds[k..] == [] && RunExpected[k..] == [];
    }
  }

  /**
   The in-order run: the interview opens with `what_problem`; four `initial`
   answers complete that phase, the three `root_cause` answers complete the next,
   and `how_prevent` ends the interview with nine summary entries (the problem
   statement and eight answers).
   */
  lemma EndToEndRun(problem: string, answer: string, t: Instant)
    ensures Start(problem, t).result.nextQuestion.value.id == "what_problem"
    ensures Trace(Start(problem, t).session, answer, t, RunIds) == RunExpected
  {
    var s := Start(problem, t).session;
    assert RunIds[..0] == [] && RunIds[0..] == RunIds && RunExpected[0..] == RunExpected;
    TraceFrom(s, answer, t, 0);
  }
}

=== FILE: responses.dfy ===
/**
 The interviewer's `responses` dictionary: an insertion-ordered association
 list from question id to `UserResponse`, where assigning an existing key
 overwrites its value in place and a new key goes to the end.
 */
module Responses {

  import opened Wrappers
  import opened Seqs

  /** `UserResponse` in scripts/five_w_interviewer.py; the timestamp is an opaque string. */
  datatype UserResponse = UserResponse(
    questionId: string,
    answerText: string,
    answerDetails: seq<string>,
    confidenceLevel: string,
    supportingEvidence: seq<string>,
    timestamp: string)

  type Responses = seq<(string, UserResponse)>

  /** `list(responses.keys())`. */
  function Keys(rs: Responses): (ks: seq<string>)
    ensures |ks| == |rs|
    ensures forall i :: 0 <= i < |rs| ==> ks[i] == rs[i].0
  {
    if |rs| == 0 then [] else [rs[0].0] + Keys(rs[1..])
  }

  /** `responses.get(k)`: the value under the first entry with key `k`. */
  function Get(rs: Responses, k: string): (r: Option<UserResponse>)
    ensures r.Some? <==> k in Keys(rs)
    ensures r.Some? ==> exists i :: 0 <= i < |rs| && rs[i] == (k, r.value)
  {
    if |rs| == 0 then None
    else if rs[0].0 == k then Some(rs[0].1)
    else
      assert Keys(rs) == [rs[0].0] + Keys(rs[1..]);
      var r := Get(rs[1..], k);
      assert r.Some? ==> exists i :: 0 <= i < |rs[1..]| && rs[1..][i] == (k, r.value);
      r
  }

  /** The keys of a list with one more entry in front. */
  lemma ConsKeys(e: (string, UserResponse), rs: Responses)
    ensures Keys([e] + rs) == [e.0] + Keys(rs)
  {
    assert ([e] + rs)[1..] == rs;
  }

  /** Lookups in a list with one more entry in front. */
  lemma ConsGet(e: (string, UserResponse), rs: Responses)
    ensures forall k :: Get([e] + rs, k) == if e.0 == k then Some(e.1) else Get(rs, k)
  {
    assert ([e] + rs)[1..] == rs;
  }

  /** Overwrite the first entry with key `k`, or append one when there is none. */
  function Assign(rs: Responses, k: string, v: UserResponse): Responses
  {
    if |rs| == 0 then [(k, v)]
    else if rs[0].0 == k then [(k, v)] + rs[1..]
    else [rs[0]] + Assign(rs[1..], k, v)
  }

  lemma {:induction false} AssignKeys(rs: Responses, k: string, v: UserResponse)
    ensures Keys(Assign(rs, k, v)) == if k in Keys(rs) then Keys(rs) else Keys(rs) + [k]
    decreases |rs|
  {
    if |rs| == 0 {
      ConsKeys((k, v), []);
    } else if rs[0].0 == k {
      ConsKeys((k, v), rs[1..]);
    } else {
      var a, ks := rs[0].0, Keys(rs[1..]);
      assert Keys(rs) == [a] + ks;
      AssignKeys(rs[1..], k, v);
      ConsKeys(rs[0], Assign(rs[1..], k, v));
      if k in ks {
        assert k in Keys(rs);
      } else {
        assert k !in Keys(rs);
        assert [a] + (ks + [k]) == ([a] + ks) + [k];
      }
    }
  }

  lemma {:induction false} AssignGet(rs: Responses, k: string, v: UserResponse)
    ensures forall k' :: Get(Assign(rs, k, v), k') == if k' == k then Some(v) else Get(rs, k')
    decreases |rs|
  {
    if |rs| == 0 {
      ConsGet((k, v), []);
    } else {
      assert rs == [rs[0]] + rs[1..];
      ConsGet(rs[0], rs[1..]);
      if rs[0].0 == k {
        ConsGet((k, v), rs[1..]);
      } else {
        AssignGet(rs[1..], k, v);
        ConsGet(rs[0], Assign(rs[1..], k, v));
      }
    }
  }

  /** `responses[k] = v`. */
  function Put(rs: Responses, k: string, v: UserResponse): (r: Responses)
    ensures Keys(r) == if k in Keys(rs) then Keys(rs) else Keys(rs) + [k]
    ensures Get(r, k) == Some(v)
    ensures forall k' :: k' != k ==> Get(r, k') == Get(rs, k')
  {
    AssignKeys(rs, k, v);
    AssignGet(rs, k, v);
    Assign(rs, k, v)
  }
}

=== FILE: seqs.dfy ===
/**
 Sequence facts shared by both components: duplicate-freedom, first-occurrence
 de-duplication (the key order of an insertion-ordered dictionary), and counting
 the elements of a list that lie in a set.
 */
module Seqs {

  predicate NoDup<T(==,!new)>(xs: seq<T>)
  {
    forall i, j :: 0 <= i < j < |xs| ==> xs[i] != xs[j]
  }

  function ToSet<T(!new)>(xs: seq<T>): (s: set<T>)
    ensures forall x :: x in s <==> x in xs
  {
    set x | x in xs
  }

  /**
   The elements of `xs` in order of first occurrence, each once: the order in
   which a Python dict lists keys that were assigned in the order of `xs`.
   */
  function Dedup<T(==,!new)>(xs: seq<T>): (r: seq<T>)
    ensures NoDup(r)
    ensures forall x :: x in r <==> x in xs
    decreases |xs|
  {
    if |xs| == 0 then []
    else
      var d := Dedup(xs[..|xs| - 1]);
      var x := xs[|xs| - 1];
      assert forall y :: y in xs <==> y in xs[..|xs| - 1] || y == x;
      if x in d then d else d + [x]
  }

  /** Appending to the input list extends the de-duplicated list only with a new element. */
  lemma {:induction false} DedupSnoc<T(!new)>(xs: seq<T>, x: T)
    ensures Dedup(xs + [x]) == if x in xs then Dedup(xs) else Dedup(xs) + [x]
  {
    assert (xs + [x])[..|xs + [x]| - 1] == xs;
  }

  /** The same, for a list with a fixed first element: a repeated element leaves the de-duplicated list as it was. */
  lemma DedupConsSnoc<T(!new)>(x: T, xs: seq<T>, y: T)
    ensures Dedup([x] + (xs + [y])) == if y in Dedup([x] + xs) then Dedup([x] + xs) else Dedup([x] + xs) + [y]
  {
    assert [x] + (xs + [y]) == ([x] + xs) + [y];
    DedupSnoc([x] + xs, y);
  }

  /** Putting an element in front of two lists placed end to end. */
  lemma ConsAppend<T>(x: T, r: seq<T>, q: seq<T>)
    ensures [x] + (r + q) == ([x] + r) + q
  {
  }

  /** Duplicate-free input is its own de-duplication. */
  lemma {:induction false} DedupOfNoDup<T(!new)>(xs: seq<T>)
    requires NoDup(xs)
    ensures Dedup(xs) == xs
    decreases |xs|
  {
    if |xs| > 0 {
      var init := xs[..|xs| - 1];
      assert NoDup(init);
      DedupOfNoDup(init);
      assert xs[|xs| - 1] !in init;
      assert init + [xs[|xs| - 1]] == xs;
    }
  }

  /** The first element survives de-duplication in front. */
  lemma {:induction false} DedupHead<T(!new)>(x: T, xs: seq<T>)
    ensures |Dedup([x] + xs)| >= 1 && Dedup([x] + xs)[0] == x
    decreases |xs|
  {
    if |xs| == 0 {
      assert Dedup([x]) == [x] by { assert [x][..0] == []; }
    } else {
      var init := xs[..|xs| - 1];
      DedupHead(x, init);
      assert ([x] + xs)[..|[x] + xs| - 1] == [x] + init;
    }
  }

  /** How many elements of `xs` (with repetition) lie in `s`. */
  function CountIn<T>(xs: seq<T>, s: set<T>): (n: nat)
    ensures n <= |xs|
  {
    if |xs| == 0 then 0
    else (if xs[0] in s then 1 else 0) + CountIn(xs[1..], s)
  }

  /** For a duplicate-free list, counting its members in `s` is the size of the overlap. */
  lemma {:induction false} CountInIsOverlap<T(!new)>(xs: seq<T>, s: set<T>)
    requires NoDup(xs)
    ensures CountIn(xs, s) == |ToSet(xs) * s|
    decreases |xs|
  {
    if |xs| == 0 {
      assert ToSet(xs) * s == {};
    } else {
      var tail := xs[1..];
      assert NoDup(tail);
      CountInIsOverlap(tail, s);
      assert xs[0] !in tail;
      if xs[0] in s {
        assert ToSet(xs) * s == (ToSet(tail) * s) + {xs[0]};
      } else {
        assert ToSet(xs) * s == ToSet(tail) * s;
      }
    }
  }

  /** When every element of `xs` lies in `s`, all of them are counted. */
  lemma {:induction false} CountAll<T>(xs: seq<T>, s: set<T>)
    requires forall x :: x in xs ==> x in s
    ensures CountIn(xs, s) == |xs|
    decreases |xs|
  {
    if |xs| > 0 {
      CountAll(xs[1..], s);
    }
  }

  /** A duplicate-free list has as many distinct elements as entries. */
  lemma NoDupSetSize<T(!new)>(xs: seq<T>)
    requires NoDup(xs)
    ensures |ToSet(xs)| == |xs|
  {
    CountInIsOverlap(xs, ToSet(xs));
    assert ToSet(xs) * ToSet(xs) == ToSet(xs);
    CountAll(xs, ToSet(xs));
  }
}

=== FILE: strings.dfy ===
/**
 Text helpers the two generators rely on: Python's substring test `t in s`
 and the decimal rendering of an integer inside an f-string.
 */
module Strings {

  /** `t` occurs in `s` starting at position `i`. */
  predicate OccursAt(s: string, t: string, i: int)
  {
    0 <= i && i + |t| <= |s| && s[i..i + |t|] == t
  }

  /** Python's `t in s` on two strings: a left-to-right substring search. */
  function Contains(s: string, t: string): (r: bool)
    ensures r <==> exists i :: OccursAt(s, t, i)
    decreases |s|
  {
    if |t| > |s| then false
    else if s[..|t|] == t then
      assert OccursAt(s, t, 0);
      true
    else
      ShiftOccurrence(s, t);
      Contains(s[1..], t)
  }

  /** An occurrence in `s` that is not at the front is an occurrence in `s[1..]`, and back. */
  lemma ShiftOccurrence(s: string, t: string)
    requires |t| <= |s| && s[..|t|] != t
    ensures (exists i :: OccursAt(s, t, i)) <==> (exists i :: OccursAt(s[1..], t, i))
  {
    forall i | OccursAt(s, t, i)
      ensures OccursAt(s[1..], t, i - 1)
    {
      assert i != 0;
      assert s[1..][i - 1..i - 1 + |t|] == s[i..i + |t|];
    }
    forall i | OccursAt(s[1..], t, i)
      ensures OccursAt(s, t, i + 1)
    {
      assert s[1..][i..i + |t|] == s[i + 1..i + 1 + |t|];
    }
  }

  /** The character of a decimal digit. */
  function Digit(d: nat): (c: char)
    requires d < 10
    ensures '0' <= c <= '9' && (c as int) - ('0' as int) == d
  {
    (('0' as int) + d) as char
  }

  predicate IsDigits(s: string)
  {
    forall i :: 0 <= i < |s| ==> '0' <= s[i] <= '9'
  }

  /** The number a string of decimal digits denotes, read most significant digit first. */
  function DigitsValue(s: string): nat
    requires IsDigits(s)
  {
    if |s| == 0 then 0
    else DigitsValue(s[..|s| - 1]) * 10 + ((s[|s| - 1] as int) - ('0' as int))
  }

  /** Python's `str(n)` for a non-negative integer, as used inside f-strings. */
  function NatToString(n: nat): (r: string)
    ensures |r| >= 1 && IsDigits(r)
    ensures DigitsValue(r) == n
    ensures r[0] == '0' ==> r == "0"
    decreases n
  {
    if n < 10 then [Digit(n)]
    else
      var prefix := NatToString(n / 10);
      var r := prefix + [Digit(n % 10)];
      assert r[..|r| - 1] == prefix;
      r
  }
}

=== FILE: wrappers.dfy ===
/** Python's `Optional`: a value that may be absent (`None`). */
module Wrappers {

  datatype Option<+T> = None | Some(value: T)
}
